=== FILE: README.md ===
# Virtual Page Turner: a Dafny model of its page engine and scanner session

The Virtual Page Turner shows a musical piece, a directory of page images,
one or two pages at a time. It turns pages from the keyboard and keeps
text annotations and bookmarks for each page. New pieces can be scanned page by
page through TWAIN. This project models the program's non-GUI logic as pure
functions over immutable datatypes and proves properties of them:

- `wrappers.dfy` (`Wrappers`): `Option` and `Result`.
- `lines.dfy` (`Lines`): Python 2 `readlines`, `strip(chars)`, and writing
  lines with newlines.
- `decimal.dfy` (`Decimal`): Python 2 `str(int)` and `int(str)`.
- `paths.dfy` (`Paths`): the platform separator and the `.ann` file
  name of a page (ConstructAnnotationFileName). It also holds the directory
  part that VerifyCanWrite checks, following `os.path.split` on Windows.
- `annotation_codec.dfy` (`AnnotationCodec`): SaveAnnotations,
  LoadAnnotations and GetAnnotations. A page's record is a count line and
  then ten lines per annotation.
- `navigation.dfy` (`Navigation`):
  - the Fit Width and Two Page views;
  - Page1Visible and Page2Visible, ScrollUp and ScrollDown;
  - forwardOnePage and backwardOnePage, and the `v` toggle;
  - Map2Image and Map2Screen;
  - which annotations DrawImages writes, and where.
- `keys.dfy` (`Keys`): OnKeyDown. It turns a key code into a character and
  the character into an action. Then it applies the actions that change the
  view, the current page, the current piece or the bookmark table.
- `page_naming.dfy` (`PageNaming`): the `PageNN` names of scanned pages.
- `twain_base.dfy` (`TwainBase`): the TwainBase session.
  - State: the source manager, the data source, AcquirePending, the
    transfer method, plus the page turner's remembered SourceName.
  - Operations: Initialise, Terminate, OpenScanner, `_Acquire`,
    AcquireNatively, AcquireByFile, PollForImage, ProcessXFer, OnTwainEvent
    and VerifyCanWrite.
- `scan_frame.dfy` (`ScanFrame`): the page turner frame's scanning, in three
  parts:
  - the scanner branch of OnCreatePiece;
  - GetNextPage;
  - the frame's own OnTwainEvent.
- `startup.dfy` (`Startup`): the `startup.txt` record of the last piece and
  collection (SaveStartup/LoadStartup), the start panel's labels and its
  choice dispatch.

What the outside world answers is a parameter:
- the page heights, client height and scroll amount, as integers;
- whether a piece turns when asked;
- every TWAIN answer and whether a directory is writable, bundled in a
  `TwainBase.Host` record;
- whether a file exists and what it holds, as an `Option<string>`.

Each TWAIN operation returns the new session, the TWAIN calls it made in
order, and whether it ended normally, caught an exception, or let one through.

Three behaviours of the code shape the model of the record files:
- Saving a page without annotations writes an empty file, with no count
  line. Loading that file clears the page.
- When a page has no `.ann` file, its annotations are left as they were.
  The page is cleared only when a file exists.
- A record that is malformed part way through keeps the annotations decoded
  before the fault. The page was cleared first, so nothing from before the
  load survives.

## Model

| member | source | states |
|---|---|---|
| Lines.StripLeftShape | test/vpt.py:1217-1218 | `strip` from the left removes exactly a leading run of the given characters and stops at the first other one |
| Lines.StripRightShape | test/vpt.py:1217-1218 | `strip` from the right removes exactly a trailing run of the given characters |
| Lines.StripTerminatedLine | test/vpt.py:1217 | a line without newlines, written with its newline, is read back as itself after `strip('\n')` |
| Lines.ReadLinesLosesNothing | test/vpt.py:1213 | `readlines` splits a file into lines whose concatenation is the whole file |
| Lines.ReadJoinedLines | test/vpt.py:1262-1278 | reading back lines written one per line gives as many lines, each the written one plus its newline |
| Decimal.NatToStringValue | test/vpt.py:1276 | the digits `str` writes for a natural number have that number as their value |
| Decimal.IntToString | test/vpt.py:1276 | `str` of an integer is never empty, holds only digits and a minus sign, and starts with a minus sign exactly when the integer is negative |
| Decimal.ParseInt | test/vpt.py:1222 | `int` refuses a line that holds no decimal digit |
| Decimal.ParseIntToString | test/vpt.py:1222-1276 | `int(str(n)) == n` for every integer, negative ones included |
| Decimal.ParseNegative | test/vpt.py:1222 | `int` reads a minus sign followed by digits as the negated value |
| Paths.Stem | test/vpt.py:885-886 | `split('.')[0]` is the longest prefix without a dot, ending where the first dot is |
| Paths.AnnotationFileName | test/vpt.py:883-894 | the annotation file is the piece directory and the platform separator, then a dot-free prefix of the page file name, then `.ann` |
| Paths.AnnotationFileNameOf | test/vpt.py:883-894 | the annotation file of `stem.ext` is the piece directory, the platform separator, `stem` and `.ann`, whatever the extension |
| Paths.LastSlashEnd | simple_base.py:192 | the split point is just past the last `/` or `\`, and no slash follows it |
| Paths.DirectoryPart | simple_base.py:192 | the head `os.path.split` gives is always a prefix of the path |
| Paths.DirectoryPartOfJoined | simple_base.py:192 | a directory and a slash-free name joined by the platform separator split back into that directory, unless it ends in a slash or is a bare drive |
| Paths.WriteCheckDir | simple_base.py:192-196 | VerifyCanWrite asks about the split head when it is not empty, and about `.` when it is |
| Paths.BareNameChecksWorkingDir | simple_base.py:192-196 | a file name without a directory is checked against the working directory |
| Paths.DriveRootChecksRoot | simple_base.py:192-196 | a file at a drive root such as `c:/twainxfer.jpg` is checked against `c:/` |
| AnnotationCodec.Fields | test/vpt.py:1263-1277 | an annotation is saved as ten fields in the order x, y, text, point size, family, style, weight, encoding, face name, mode; each field is a number or text according to the record schema |
| AnnotationCodec.Encode | test/vpt.py:1257-1279 | SaveAnnotations writes an empty file exactly when the page has no annotations |
| AnnotationCodec.CleanLineShape | test/vpt.py:1215-1219 | a line read is cleaned to a contiguous piece of itself with only newlines and carriage returns cut off around it, and no carriage return left at either end |
| AnnotationCodec.ReadField | test/vpt.py:1224-1240 | a field read successfully has the kind the schema asks for; reading past the last line fails |
| AnnotationCodec.DecodeRecords | test/vpt.py:1223-1243 | a load adds at most the count's number of annotations and stops with an error exactly when it adds fewer |
| AnnotationCodec.DecodeRecordsNth | test/vpt.py:1223-1243 | annotation `i` of a load is the record decoded from the ten lines at `idx + 10 i` |
| AnnotationCodec.DecodeRecordsStop | test/vpt.py:1223-1243 | a load that stops early stops at the record right after the last one it kept, with that record's error |
| AnnotationCodec.DecodeLines | test/vpt.py:1220-1243 | no lines add nothing; a count line `int` refuses clears the page with an error at line 0; otherwise at most the count's number of annotations are added, and the load fails exactly when fewer are |
| AnnotationCodec.Decode | test/vpt.py:1210-1243 | an empty file decodes to no annotations and no error |
| AnnotationCodec.Load | test/vpt.py:1210-1221 | with no file the page keeps its annotations; an empty file clears the page |
| AnnotationCodec.LoadShownPages | test/vpt.py:1245-1255 | GetAnnotations loads the current page first; a failure there leaves the next page untouched and is the error; otherwise the next page, if there is one, is loaded and its error is the result's |
| AnnotationCodec.CleanTerminatedLine | test/vpt.py:1216-1218 | a safe line written with its newline is read back as itself |
| AnnotationCodec.NumberLineSafe | test/vpt.py:1276 | the decimal form of any integer is a safe line |
| AnnotationCodec.ReadBackEncodedLines | test/vpt.py:1210-1279 | reading back a saved record of storable annotations gives exactly the lines that were written |
| AnnotationCodec.EncodeLayout | test/vpt.py:1261-1278 | a record of `n >= 1` annotations is `n` and then, for annotation `i`, its ten lines at lines `1 + 10 i` up to `10 + 10 i` |
| AnnotationCodec.DecodeStoredRecord | test/vpt.py:1224-1242 | the ten lines saved for a storable annotation decode to that annotation |
| AnnotationCodec.DecodeRecordsPrefix | test/vpt.py:1223-1243 | once the first records decode to a list, the load returns that list first and then whatever follows |
| AnnotationCodec.EncodeDecode | test/vpt.py:1210-1279 | storable annotations are saved and loaded back as the same list in the same order; for the empty list this is the empty file |
| AnnotationCodec.SaveThenLoad | test/vpt.py:1210-1279 | saving and then loading a page replaces what the page held with the saved annotations |
| AnnotationCodec.SaveThenLoadShown | test/vpt.py:1245-1279 | after both shown pages were saved, GetAnnotations shows each page exactly what was saved for it, with no error |
| AnnotationCodec.MalformedRecordKeepsPrefix | test/vpt.py:1220-1243 | at the first record that does not decode, the load stops; the page keeps exactly the annotations decoded before it, and the error is that record's |
| AnnotationCodec.TruncatedRecordKeepsPrefix | test/vpt.py:1220-1243 | when the file ends part way through a record the count still promises, or right after the last whole one, the load keeps the whole records before it and fails at the first missing line |
| AnnotationCodec.CutRecordFails | test/vpt.py:1224-1240 | a record whose lines run out after fields that read fine fails at the first missing line |
| AnnotationCodec.CountOneTooMany | test/vpt.py:1222-1278 | the records saved under a count line that promises one more still decode, one by one, to the saved annotations |
| AnnotationCodec.BadCountClearsPage | test/vpt.py:1220-1222 | a file whose first line is not a number clears the page, adds nothing and fails at line 0 |
| Navigation.ShowsIff | test/vpt.py:1081-1095 | a page of positive height shows a window row exactly when its top is above the window's bottom and its bottom is below the window's top |
| Navigation.Page1Visible | test/vpt.py:1081-1086 | for a page and window of positive height, Page1Visible holds exactly when some row of the current page is inside the window |
| Navigation.Page2Visible | test/vpt.py:1088-1095 | for a page and window of positive height, Page2Visible holds exactly when some row of the page drawn below the current one is inside the window |
| Navigation.ScrollUp | test/vpt.py:1205-1207 | ScrollDown takes back what ScrollUp did |
| Navigation.ScrollDown | test/vpt.py:1201-1203 | every row of a page moves down by exactly the scroll amount |
| Navigation.ScrollDownUndoesScrollUp | test/vpt.py:1201-1207 | ScrollUp and ScrollDown move `ypos` by the same amount in opposite directions |
| Navigation.Forward | test/vpt.py:1127-1157 | Fit Width: `ypos` first drops by the scroll amount; the piece is asked to turn exactly when page 1 is no longer visible, and turns exactly when it answers yes; `ypos` grows by page 1's height only when the turn happened. Two Page: always asks and keeps `ypos` |
| Navigation.Backward | test/vpt.py:1158-1196 | Fit Width: `ypos` first grows by the scroll amount; the piece is asked to turn exactly when page 2 is no longer visible, and turns exactly when it answers yes; `ypos` drops by the new current page's height only when the turn happened and a current page exists |
| Navigation.ForwardOnlyScrolls | test/vpt.py:1127-1133 | while page 1 stays visible after the scroll, a forward step only scrolls |
| Navigation.ForwardKeepsNextPageInPlace | test/vpt.py:1127-1140 | after a forward turn the new current page is drawn exactly where it was drawn as the page below |
| Navigation.BackwardKeepsOldPageInPlace | test/vpt.py:1158-1175 | after a backward turn the old current page, now below the new one, stays where it was after the scroll |
| Navigation.ForwardThenBackward | test/vpt.py:1127-1175 | a Fit Width forward turn followed by a backward turn returns `ypos` to where it started |
| Navigation.ScrollForwardThenBack | test/vpt.py:1127-1163 | a forward step that only scrolls is undone by a backward step that only scrolls |
| Navigation.ToggleView | test/vpt.py:569-580 | `v` turns Two Page into Fit Width and every other mode into Two Page, and puts the view back at the top |
| Navigation.ToggleViewTwice | test/vpt.py:569-580 | toggling twice from either known mode comes back to it |
| Navigation.Map2Image | test/vpt.py:897-900 | Map2Screen maps the result back to the position given |
| Navigation.Map2Screen | test/vpt.py:902-905 | a window position maps to the origin exactly when it is the current page's corner |
| Navigation.MapsAreInverse | test/vpt.py:897-905 | Map2Image and Map2Screen are inverse to each other |
| Navigation.DrawnOnIff | test/vpt.py:1038-1051 | DrawImages writes exactly the annotations tagged with the current view mode, each at its position mapped by Map2Image |
| Navigation.Drawn | test/vpt.py:1038-1065 | outside Two Page mode exactly the current page's annotations are written; in Two Page mode the next page's are written too, shifted by the current page's width, and nothing else is written |
| Navigation.NextPageAnnotationShifted | test/vpt.py:1052-1065 | in Two Page mode each Two Page annotation of the next page is written at its mapped position moved right by the current page's width |
| Navigation.ClickedAnnotationDrawnAtClick | test/vpt.py:748-758 | an annotation placed by a click is drawn back exactly at the click while the view does not move |
| Keys.KeyChar | test/vpt.py:494-504 | codes up to 255 are their own character; above 255 only the two arrows give a character, `f` or `b` |
| Keys.KeyCharArrows | test/vpt.py:494-504 | the down arrow (code 317) and the `f` key, and only they, read as `f`; the up arrow (code 315) and `b`, and only they, read as `b`; the code's comments call 317 the up arrow, but in wxPython 317 is WXK_DOWN and 315 is WXK_UP |
| Keys.ShiftIndex | test/vpt.py:614-715 | `!@#$%^&*(` are the shifted digits that set slots 1 to 9 |
| Keys.KeyAction | test/vpt.py:505-715 | as written, a digit key never recalls slot 8, and only the shifted digits set bookmarks |
| Keys.IntendedKeyAction | test/vpt.py:608-715 | every digit key `1` to `9` recalls its own slot |
| Keys.DispatchesDifferOnlyOnEight | test/vpt.py:694-699 | the written dispatch and the corrected one disagree on the `8` key and on no other |
| Keys.SlotEightNeverRecalled | test/vpt.py:694-705 | as written, `*` sets slot 8, no key recalls it, and `8` recalls slot 1 |
| Keys.IntendedSlotsMatch | test/vpt.py:608-715 | shifted digit `i` sets slot `i` and digit `i` recalls slot `i`, for every slot |
| Keys.AddBookmark | test/vpt.py:614-619 | the slot now holds the page and view position, and every other slot is unchanged |
| Keys.GoToBookmark | test/vpt.py:608-613 | a set slot makes its page current and gives back its position; an empty slot changes nothing |
| Keys.HandleAction | test/vpt.py:505-715 | with no piece loaded only `0` and `v` change the view; bookmark keys never change the mode; only `F` and `B` change which piece is loaded, and they go to the program's next or previous piece at the top of the view; `f` and `b` move the view and page as forwardOnePage and backwardOnePage do; `v` switches the view mode as ToggleView does; `0` goes to page 0 at position 0,0; `-` empties the bookmark table and keeps the view |
| Keys.HandleKey | test/vpt.py:478-715 | OnKeyDown as written acts as the corrected handler on every key but `8`, and `8` recalls slot 1 |
| Keys.SetThenRecall | test/vpt.py:608-715 | in the corrected handler, a bookmark set with a shifted digit is recalled by the digit, with its page and position, whatever happened in between that left the bookmarks alone |
| Keys.EightRecallsSlotOne | test/vpt.py:694-699 | as written, `8` restores slot 1's bookmark even when slot 8 holds one |
| Keys.ForwardKeys | test/vpt.py:494-520 | `f`, space and the down arrow (317) act alike, and `b` and the up arrow (315) act alike |
| Keys.OtherWideKeysIgnored | test/vpt.py:494-502 | codes above 255 other than the two arrows change nothing |
| PageNaming.PageStrTwoDigits | test/vpt.py:1117-1120 | page numbers 0 to 99 are written with exactly two digits |
| PageNaming.PageStrValue | test/vpt.py:1117-1120 | the padded page string reads back as its number |
| PageNaming.PageStrInjective | test/vpt.py:1117-1120 | different page numbers never share a page string |
| PageNaming.PageStr | test/vpt.py:1117-1120 | a page string of a non-negative number has at least two characters, all digits |
| PageNaming.PageFileName | test/vpt.py:1121-1124 | the page file is in the scan directory and its name starts with `Page` |
| PageNaming.PageFileNameInjective | test/vpt.py:1121-1124 | two page files in the same directory share a name only when they share a number |
| PageNaming.DistinctPagesDistinctFiles | test/vpt.py:1121-1124 | different page numbers always give different file names |
| ScanFrame.NewFrame | test/vpt.py:148-162 | a new frame holds no manager, no source and no pending acquisition, and its page string agrees with its page number |
| ScanFrame.StartScan | test/vpt.py:363-377 | scanning restarts at page 1; the callback is registered exactly when a manager is held; with a directory chosen the first page goes to `Page01` there and a native acquisition is requested exactly when a source is open, and it is pending when the request does not raise; without a directory, nothing is requested and the file name stays |
| ScanFrame.GetNextPage | test/vpt.py:1115-1125 | the page number grows by exactly one, and the file name is the directory, the separator, `Page`, the padded number and the suffix; a native acquisition is requested exactly when a source is open, and with a source and a request that does not raise the calls are SetResolution then RequestAcquire, leaving an acquisition pending |
| ScanFrame.ScanPagesNumbering | test/vpt.py:1115-1125 | after `k` pages the number has grown by exactly `k` and the file name follows it |
| ScanFrame.ScannedFilesDistinct | test/vpt.py:1115-1125 | pages scanned one after another never overwrite each other's files |
| ScanFrame.FirstPageNeverOverwritten | test/vpt.py:363-377 | the first page's file, chosen when the scan starts, is never the file of a later page |
| ScanFrame.OnTwainEvent | test/vpt.py:422-446 | a ready image is first transferred into the current page file (its calls come first, and a native transfer's first call writes that file), then either leads to the next page, whose file is the next `PageNN` name and whose acquisition is requested exactly when a source is open, or ends the session with AcquirePending as the transfer left it; a close request drops the data source; nothing escapes the callback |
| ScanFrame.ScanOnePageThenNext | test/vpt.py:422-433 | with favourable answers, a ready page goes to the current file and the next page is requested under the next name |
| TwainBase.Initialise | simple_base.py:60-66 | no manager, no source, native transfers, nothing pending |
| TwainBase.Terminate | simple_base.py:68-72 | destroys exactly the handles that are present and then holds neither |
| TwainBase.TerminateIdempotent | simple_base.py:68-72 | a second Terminate calls nothing and changes nothing |
| TwainBase.InitialiseAndTerminateAgree | simple_base.py:60-72 | Initialise and Terminate both end with no manager and no source |
| TwainBase.OpenScanner | simple_base.py:74-90 | when no manager can be had it only tried to create one and returns; otherwise it destroys the source it held before opening a new one, keeps what the selection gives (maybe nothing), and keeps the flags; the event callback is registered exactly when it is asked for and a manager is held |
| TwainBase.OpenScannerDestroysBeforeOpening | simple_base.py:84-87 | the old source is destroyed before the new one is opened |
| TwainBase.FrameReopensByName | test/vpt.py:316-335 | the frame asks for the source it used last and remembers the one it gets |
| TwainBase.Acquire | simple_base.py:92-104 | with no source after trying to open one, nothing is pending that was not before; otherwise the acquisition is requested, and it is pending unless the request raised |
| TwainBase.AcquireMarksPending | simple_base.py:92-104 | with a source and a request that succeeds, the resolution is set, the acquisition is requested and it is pending |
| TwainBase.AcquireNatively | simple_base.py:106-110 | switches to native transfers and runs `_Acquire`: with a source and a request that succeeds it sets the resolution, requests the acquisition and marks it pending; without a source it first opens the scanner; the acquisition is requested exactly when a source is held |
| TwainBase.AcquireByFile | simple_base.py:112-115 | switches to by-file transfers and runs `_Acquire`, with the same requests and pending flag as AcquireNatively |
| TwainBase.AcquireNativelyIgnoresFileName | simple_base.py:106-110 | the file name given to AcquireNatively changes nothing |
| TwainBase.VerifyCanWrite | simple_base.py:189-198 | raises CannotWriteTransferFile for the path exactly when the directory checked is not writable |
| TwainBase.ByFileName | simple_base.py:135-154 | the transfer file is the device's own, TWAIN.TMP or the override file: a device name whose directory is writable is used as is; a device that gives no name gets TWAIN.TMP when `.` is writable; when the override name is sent, a rename that raises keeps the name chosen before and one that succeeds gives the override file |
| TwainBase.ProcessXFer | simple_base.py:125-167 | success sets AcquirePending and changes nothing else; any failure is caught and leaves the session as it was; a by-file success wrote to a writable directory |
| TwainBase.TransferFileOverridden | simple_base.py:136-156 | a device naming an unwritable file is told to use `c:/twainxfer.jpg`, and the image goes there |
| TwainBase.OverrideFileDir | simple_base.py:189-198 | the override file is checked against `c:/` |
| TwainBase.TransferFileDefault | simple_base.py:136-141 | a device that cannot name a file transfers to TWAIN.TMP in the working directory |
| TwainBase.PollForImage | simple_base.py:117-123 | no change unless an acquisition is pending and an image is reported; a GetImageInfo that raises lets its exception out and changes nothing; with an image, the calls are GetImageInfo and the transfer into tmp.bmp, which is where every native transfer goes; only AcquirePending ever changes, and only through a transfer that failed |
| TwainBase.PollWithoutImageIsIdle | simple_base.py:117-123 | repeated polls with no image, or with a GetImageInfo that raises, change nothing |
| TwainBase.PollTransferSetsPending | simple_base.py:117-167 | after a poll that finds an image, an acquisition is pending exactly when the transfer succeeded |
| TwainBase.OnTwainEvent | simple_base.py:169-187 | a ready image clears the flag and makes the transfer into tmp.bmp, and the flag is set again exactly on success; other messages change nothing; nothing escapes |
| TwainBase.AcquiredImageGoesToTmp | simple_base.py:106-179 | after AcquireNatively, whatever file name it was given, the image-ready event transfers the image into tmp.bmp |
| TwainBase.EventsPendingFlag | simple_base.py:169-187 | over a series of events only the pending flag changes: not at all without an image-ready event, and after one it says whether the transfer succeeded |
| Startup.Save | test/vpt.py:839-847 | nothing is written exactly when there is no last piece |
| Startup.Load | test/vpt.py:787-799 | without the file, or with an empty one, both entries are unset; a collection is only read after a piece |
| Startup.SaveThenLoad | test/vpt.py:787-847 | a saved record is read back as the saved piece and collection, with empty entries dropped |
| Startup.LoadThenSave | test/vpt.py:787-847 | saving a record that was just read back writes the same content |
| Startup.Label | test/vpt.py:803-818 | the label is the part of the path after its last separator, or the whole path when it has none |
| Startup.LabelOfJoined | test/vpt.py:803-818 | a directory and a plain name joined by the separator are labelled with the name |
| Startup.StartRequest | test/vpt.py:820-835 | the last piece or collection is opened only when one is stored; the select choices open their dialogs |
| Startup.RestartReopensPiece | test/vpt.py:787-847 | after a save, choosing the last piece on the next start reopens the piece that was open |

## Left out

- GUI work is not modelled: dialogs, menus, painting bitmaps, cursors, the
  status bar and modal prompts. Their outcomes are parameters: the chosen
  directory, "another page?", the start panel's choice.
- Image scaling and the timer's speed-up and slow-down are floating point.
  Page heights, the client height and the scroll amount are integers
  supplied by the caller.
- Navigation.Forward, Navigation.Backward: SCROLL_AMOUNT is read with
  `float`. The model uses integers, so the offsets are exact only for
  integral scroll amounts.
- Navigation.Forward, Navigation.Backward: the code reads the view mode once
  from the options (`VIEW_MODE`) and once from `self.VIEWMODE`. The model
  uses one mode, because every writer shown updates both together.
- Options loading and saving, and the Piece, Program, Page and Annotation
  classes, are not part of this model. A piece is seen only through three
  things: its current page, a TurnForward/TurnBackward answer, and its
  bookmark table. The table is used through AddBookmark and GoToBookmark
  with the meaning their callers expect.
- PDF conversion through ImageMagick is left out because it runs an
  external process.
- The recognised-extension list and the directory scan are left out, because
  their code is not part of this model.
- The frame's `Acquire` (test/vpt.py:289-306) is left out because nothing
  calls it: AcquireNatively goes to TwainBase's `_Acquire`.
- Logging and `traceback` printing are left out.
- Navigation.Backward: when the piece does not turn and the frame has no
  current page, the program raises AttributeError after the scroll
  (test/vpt.py:1182). The model keeps the scrolled `ypos` that exception
  leaves and reports no error.
- Keys.HandleAction: with no piece loaded, `0` and `-` make the program
  raise AttributeError on `currentPiece`. The model keeps the state that
  exception leaves: the view at 0,0 for `0`, nothing changed for `-`.
- TwainBase.Terminate, TwainBase.OpenScanner: exceptions raised by the TWAIN
  library's `destroy`, `SourceManager`, `OpenSource`, `SetCallback`
  (simple_base.py:90, test/vpt.py:338) and the frame's `GetSourceName`
  (test/vpt.py:333-334) are not modelled. Those calls always answer as the
  host says. GetImageInfo's exception is modelled (TwainBase.PollForImage).
- TwainBase.Acquire: the `GetCapability` call that only the frame's unused
  `Acquire` makes is left out, and so is the log message.
- A `TwainBase.Host` gives the same answer to every call of one kind within
  one operation. For example, two GetXferFileName calls could not answer
  differently.
- The TWAIN callback's foreign thread is not modelled; events are handled
  one after another.
- Keys.HandleAction: key `L` calls `self.Skip()`, which raises in the code.
  Every dialog, timer, font and quit action is treated as leaving the view
  and the piece unchanged.
- Keys.HandleAction: keys `0` and `-` call the piece without checking that
  one is loaded. `0` resets the view before it fails, and `-` fails with no
  effect, and that is what the model gives.
- Keys.HandleKey is the handler as written, `8` included; see Findings.
  Keys.HandleKeyIntended is the corrected handler.
- Keys.HandleAction: `F` and `B` take the program's next or previous piece
  as a parameter. What LoadCurrentPiece then reloads (pages, annotations,
  the timer) and the status bar are not modelled.
- AnnotationCodec.DecodeLines: Python 2's `range(0, n)` builds the whole
  list first, so a huge count raises OverflowError or MemoryError before any
  record is read. The model reads records until the first missing line.
- AnnotationCodec.Encode: texts are Python 2 byte strings. A unicode text
  with non-ASCII characters makes `writelines` raise; the model writes any
  character.
- AnnotationCodec.EncodeDecode: the font is kept as the five numbers and
  the face name that were read. What `wx.Font` and `SetFaceName` do with
  them is not modelled: a face that is not installed, or a value wx rejects
  or normalises.
- PageNaming.PageFileName: its contract states only the directory, the
  separator and `Page`. The rest of the name is stated by
  ScanFrame.GetNextPage, and its injectivity by
  PageNaming.PageFileNameInjective.
- Navigation.ScrollUp, Navigation.ScrollDown: the value they return is
  ignored by every caller and is not modelled.
- ScanFrame.OnTwainEvent: the "another page?" answer is a parameter, as is
  the "piece created" status text.
- Navigation.PlaceAt, Navigation.ClickedAnnotationDrawnAtClick: the window's
  own screen offset (ClientToScreen and ScreenToClient) is left out, so
  positions are window positions throughout. The offset is added when a
  click is stored and taken off again when the text is drawn, so it cancels
  while the window stays where it was.
- Paths.DirectoryPart: UNC paths (`\\server\share`) are not modelled; only
  drive letters are.

## Findings

| source | as written | input that shows it | evidently intended | confidence | as-written member | corrected member |
|---|---|---|---|---|---|---|
| test/vpt.py:694-699 | the `8` key calls `GoToBookmark(1)` | set bookmarks 1 and 8, then press `8`: slot 1's page and position come back, and slot 8's can never be recalled | `8` recalls slot 8, as `*` sets it and every other digit recalls its own slot | high, not executed | Keys.KeyAction, Keys.HandleKey, Keys.SlotEightNeverRecalled, Keys.EightRecallsSlotOne | Keys.IntendedKeyAction, Keys.IntendedSlotsMatch, Keys.SetThenRecall |

=== FILE: annotation_codec.dfy ===
/**
 * The per-page annotation record: how vptFrame writes a page's annotations
 * to its `.ann` file (SaveAnnotations) and reads them back
 * (LoadAnnotations, GetAnnotations).
 *
 * A record is a count line followed by ten lines per annotation: x, y, text,
 * point size, family, style, weight, encoding, face name and view-mode tag.
 */
module AnnotationCodec {
  import opened Wrappers
  import Lines
  import Decimal

  /** The font fields a record keeps, as the wx font getters report them. */
  datatype Font = Font(pointSize: int, family: int, style: int, weight: int, encoding: int, faceName: string)

  /** Text placed at an image position, tagged with the view mode it was placed in. */
  datatype Annotation = Annotation(x: int, y: int, text: string, font: Font, mode: string)

  /** A record line holds either a decimal number or free text. */
  datatype Kind = NumberLine | TextLine

  /** One field of a record, as written to or read from its line. */
  datatype Field = Number(n: int) | Text(s: string) {
    function KindOf(): Kind {
      if Number? then NumberLine else TextLine
    }
  }

  /** The kinds of the ten lines of an annotation, in file order. */
  const Schema: seq<Kind> :=
    [NumberLine, NumberLine, TextLine, NumberLine, NumberLine, NumberLine, NumberLine, NumberLine, TextLine, TextLine]

  const Newline: set<char> := {'\n'}
  const CarriageReturn: set<char> := {'\r'}

  /**
   * The ten fields SaveAnnotations writes for one annotation: position,
   * text (newlines at its ends dropped), the five numeric font attributes,
   * face name and view-mode tag.
   */
  function Fields(a: Annotation): (fs: seq<Field>)
    ensures |fs| == |Schema|
    ensures forall k :: 0 <= k < |fs| ==> fs[k].KindOf() == Schema[k]
  {
    [ Number(a.x), Number(a.y), Text(Lines.Strip(a.text, Newline)),
      Number(a.font.pointSize), Number(a.font.family), Number(a.font.style),
      Number(a.font.weight), Number(a.font.encoding), Text(a.font.faceName), Text(a.mode) ]
  }

  /** A number is written with `str`, text as it is. */
  function Render(f: Field): string {
    match f
    case Number(n) => Decimal.IntToString(n)
    case Text(s) => s
  }

  /** The ten lines written for one annotation, each without its newline. */
  function RecordLines(a: Annotation): (lines: seq<string>)
    ensures |lines| == 10
  {
    var fs := Fields(a);
    seq(10, k requires 0 <= k < 10 => Render(fs[k]))
  }

  function AllRecordLines(annots: seq<Annotation>): (lines: seq<string>)
    ensures |lines| == 10 * |annots|
  {
    if |annots| == 0 then [] else RecordLines(annots[0]) + AllRecordLines(annots[1..])
  }

  /**
   * The content SaveAnnotations writes: nothing at all for a page without
   * annotations, otherwise the count line and then each annotation's lines.
   */
  function Encode(annots: seq<Annotation>): (r: string)
    ensures r == "" <==> |annots| == 0
  {
    if |annots| == 0 then ""
    else Lines.JoinLines([Decimal.IntToString(|annots|)] + AllRecordLines(annots))
  }

  /** The clean-up applied to every line read: newlines, then carriage returns, off both ends. */
  function CleanLine(line: string): string {
    Lines.Strip(Lines.Strip(line, Newline), CarriageReturn)
  }

  /** `r` is the piece of `line` from index `i` on, and everything around it is a newline or a carriage return. */
  predicate PieceAt(line: string, r: string, i: int) {
    0 <= i <= |line| - |r| && r == line[i..i + |r|]
    && (forall k :: 0 <= k < i ==> line[k] == '\n' || line[k] == '\r')
    && (forall k :: i + |r| <= k < |line| ==> line[k] == '\n' || line[k] == '\r')
  }

  /**
   * What the clean-up leaves of a line: a contiguous piece of it, with only
   * newlines and carriage returns cut off on either side, and no carriage
   * return left at either end.
   */
  lemma CleanLineShape(line: string)
    ensures Lines.Unpadded(CleanLine(line), CarriageReturn)
    ensures exists i :: PieceAt(line, CleanLine(line), i)
  {
    var b := Lines.Strip(line, Newline);
    var c := Lines.Strip(b, CarriageReturn);
    var i1 := |line| - |Lines.StripLeft(line, Newline)|;
    var i2 := |b| - |Lines.StripLeft(b, CarriageReturn)|;
    assert PieceAt(line, b, i1) by { StripPiece(line, Newline); }
    assert PieceAt(b, c, i2) && Lines.Unpadded(c, CarriageReturn) by { StripPiece(b, CarriageReturn); }
    assert PieceAt(line, c, i1 + i2) by { PieceOfPiece(line, b, c, i1, i2); }
  }

  /** `strip` leaves a piece of the string that neither starts nor ends with a stripped character. */
  lemma StripPiece(s: string, cs: set<char>)
    requires cs <= Newline + CarriageReturn
    ensures PieceAt(s, Lines.Strip(s, cs), |s| - |Lines.StripLeft(s, cs)|)
    ensures Lines.Unpadded(Lines.Strip(s, cs), cs)
  {
    var a := Lines.StripLeft(s, cs);
    StripLeftPiece(s, cs);
    StripRightPiece(a, cs);
    PieceOfPiece(s, a, Lines.Strip(s, cs), |s| - |a|, 0);
    Lines.StripLeftShape(s, cs);
    Lines.StripRightShape(a, cs);
    var r := Lines.Strip(s, cs);
    if |r| > 0 {
      assert r[0] == a[0];
    }
  }

  lemma StripLeftPiece(s: string, cs: set<char>)
    requires cs <= Newline + CarriageReturn
    ensures PieceAt(s, Lines.StripLeft(s, cs), |s| - |Lines.StripLeft(s, cs)|)
  {
    Lines.StripLeftShape(s, cs);
  }

  lemma StripRightPiece(s: string, cs: set<char>)
    requires cs <= Newline + CarriageReturn
    ensures PieceAt(s, Lines.StripRight(s, cs), 0)
  {
    Lines.StripRightShape(s, cs);
  }

  /** A piece of a piece of a line is a piece of the line. */
  lemma PieceOfPiece(line: string, outer: string, inner: string, i: int, j: int)
    requires PieceAt(line, outer, i) && PieceAt(outer, inner, j)
    ensures PieceAt(line, inner, i + j)
  {
    forall k | 0 <= k < i + j
      ensures line[k] == '\n' || line[k] == '\r'
    {
      if k >= i {
        assert line[k] == outer[k - i];
      }
    }
    forall k | i + j + |inner| <= k < |line|
      ensures line[k] == '\n' || line[k] == '\r'
    {
      if k < i + |outer| {
        assert line[k] == outer[k - i];
      }
    }
    forall k | 0 <= k < |inner|
      ensures inner[k] == line[i + j + k]
    {
      assert inner[k] == outer[j + k];
    }
    assert inner == line[i + j..i + j + |inner|];
  }

  function CleanLines(lines: seq<string>): (r: seq<string>)
    ensures |r| == |lines|
    ensures forall i :: 0 <= i < |lines| ==> r[i] == CleanLine(lines[i])
  {
    seq(|lines|, i requires 0 <= i < |lines| => CleanLine(lines[i]))
  }

  /** What aborts a load: a line `int()` refuses, or an index past the last line. */
  datatype LoadError = NotANumber(line: nat) | MissingLine(line: nat)

  /**
   * Line `i` read as a field of the given kind: a number through `int()`,
   * text with newlines at its ends stripped once more.
   */
  function ReadField(lines: seq<string>, i: nat, kind: Kind): (r: Result<Field, LoadError>)
    ensures r.Success? ==> r.value.KindOf() == kind
    ensures r.Success? ==> i < |lines|
  {
    if i >= |lines| then Failure(MissingLine(i))
    else match kind
      case TextLine => Success(Text(Lines.Strip(lines[i], Newline)))
      case NumberLine =>
        match Decimal.ParseInt(lines[i])
        case None => Failure(NotANumber(i))
        case Some(v) => Success(Number(v))
  }

  /**
   * The fields of the record starting at line `start`, from line `idx` to
   * the record's end, each read with its schema kind; the first that fails
   * stops the read.
   */
  function ReadFields(lines: seq<string>, start: nat, idx: nat): (r: Result<seq<Field>, LoadError>)
    requires start <= idx <= start + 10
    ensures r.Success? ==> |r.value| == start + 10 - idx
    decreases |lines| - idx
  {
    if idx == start + 10 then Success([])
    else
      var f :- ReadField(lines, idx, Schema[idx - start]);
      var rest :- ReadFields(lines, start, idx + 1);
      Success([f] + rest)
  }

  function NumberOf(f: Field): int {
    if f.Number? then f.n else 0
  }

  function TextOf(f: Field): string {
    if f.Text? then f.s else ""
  }

  /** The annotation built from ten fields read in file order. */
  function Assemble(fs: seq<Field>): Annotation
    requires |fs| == 10
  {
    Annotation(NumberOf(fs[0]), NumberOf(fs[1]), TextOf(fs[2]),
               Font(NumberOf(fs[3]), NumberOf(fs[4]), NumberOf(fs[5]), NumberOf(fs[6]), NumberOf(fs[7]), TextOf(fs[8])),
               TextOf(fs[9]))
  }

  /** One annotation read from the ten lines starting at `idx`. */
  function DecodeRecord(lines: seq<string>, idx: nat): Result<Annotation, LoadError> {
    var fs :- ReadFields(lines, idx, idx);
    Success(Assemble(fs))
  }

  /** How one record is read: the lines and the index of its first line. */
  type RecordReader = (seq<string>, nat) -> Result<Annotation, LoadError>

  /** The record reader LoadAnnotations uses. */
  const ReadRecord: RecordReader := DecodeRecord

  /** The annotations a load added to the page, and what stopped it early, if anything. */
  datatype Decoded = Decoded(annotations: seq<Annotation>, error: Option<LoadError>)

  /**
   * Up to `count` annotations read one after another from line `idx` on; the
   * first record that fails stops the load and the ones before it stay.
   */
  function DecodeRecords(read: RecordReader, lines: seq<string>, idx: nat, count: nat): (r: Decoded)
    ensures |r.annotations| <= count
    ensures r.error.None? <==> |r.annotations| == count
    decreases count
  {
    if count == 0 then Decoded([], None)
    else match read(lines, idx)
      case Failure(e) => Decoded([], Some(e))
      case Success(a) =>
        var rest := DecodeRecords(read, lines, idx + 10, count - 1);
        Decoded([a] + rest.annotations, rest.error)
  }

  /** Annotation `i` of a load is what the ten lines at `idx + 10 i` decode to. */
  lemma {:induction false} DecodeRecordsNth(read: RecordReader, lines: seq<string>, idx: nat, count: nat, i: nat)
    requires i < |DecodeRecords(read, lines, idx, count).annotations|
    ensures read(lines, idx + 10 * i) == Success(DecodeRecords(read, lines, idx, count).annotations[i])
    decreases i
  {
    if i > 0 {
      var rest := DecodeRecords(read, lines, idx + 10, count - 1);
      assert DecodeRecords(read, lines, idx, count).annotations[i] == rest.annotations[i - 1];
      DecodeRecordsNth(read, lines, idx + 10, count - 1, i - 1);
      assert idx + 10 + 10 * (i - 1) == idx + 10 * i;
    }
  }

  /**
   * A load that stops early stops at the record right after the last one it
   * kept, with that record's error.
   */
  lemma {:induction false} DecodeRecordsStop(read: RecordReader, lines: seq<string>, idx: nat, count: nat)
    requires DecodeRecords(read, lines, idx, count).error.Some?
    ensures var r := DecodeRecords(read, lines, idx, count);
            read(lines, idx + 10 * |r.annotations|) == Failure(r.error.value)
    decreases count
  {
    if read(lines, idx).Success? {
      var rest := DecodeRecords(read, lines, idx + 10, count - 1);
      DecodeRecordsStop(read, lines, idx + 10, count - 1);
      assert idx + 10 + 10 * |rest.annotations| == idx + 10 * |DecodeRecords(read, lines, idx, count).annotations|;
    }
  }

  /** The annotations decoded from a record file's cleaned lines; a negative count reads nothing. */
  function DecodeLines(lines: seq<string>): (r: Decoded)
    ensures |lines| == 0 ==> r == Decoded([], None)
    ensures |lines| > 0 && Decimal.ParseInt(lines[0]).None? ==> r == Decoded([], Some(NotANumber(0)))
    ensures |lines| > 0 && Decimal.ParseInt(lines[0]).Some? ==>
              var n := Decimal.ParseInt(lines[0]).value;
              |r.annotations| <= (if n < 0 then 0 else n)
              && (r.error.None? <==> |r.annotations| == (if n < 0 then 0 else n))
  {
    if |lines| == 0 then Decoded([], None)
    else match Decimal.ParseInt(lines[0])
      case None => Decoded([], Some(NotANumber(0)))
      case Some(n) => DecodeRecords(ReadRecord, lines, 1, if n < 0 then 0 else n)
  }

  /** The annotations decoded from a record file's content. */
  function Decode(content: string): (r: Decoded)
    ensures content == "" ==> r == Decoded([], None)
  {
    DecodeLines(CleanLines(Lines.ReadLines(content)))
  }

  /**
   * LoadAnnotations: with no record file the page keeps its annotations;
   * otherwise the page is cleared and then receives what decodes.
   */
  function Load(page: seq<Annotation>, file: Option<string>): (r: Decoded)
    ensures file.None? ==> r == Decoded(page, None)
    ensures file == Some("") ==> r == Decoded([], None)
  {
    match file
    case None => Decoded(page, None)
    case Some(content) => Decode(content)
  }

  /** The two pages shown after GetAnnotations, and the error that stopped it, if any. */
  datatype Shown = Shown(current: seq<Annotation>, next: Option<seq<Annotation>>, error: Option<LoadError>)

  /**
   * GetAnnotations: the current page is loaded, then the next page if there
   * is one; an error on the current page propagates before the next page is
   * touched.
   */
  function LoadShownPages(current: seq<Annotation>, currentFile: Option<string>,
                          next: Option<seq<Annotation>>, nextFile: Option<string>): (r: Shown)
    ensures r.current == Load(current, currentFile).annotations
    ensures Load(current, currentFile).error.Some? ==> r.next == next && r.error == Load(current, currentFile).error
    ensures next.None? ==> r.next.None?
    ensures Load(current, currentFile).error.None? && next.Some? ==>
              r.next == Some(Load(next.value, nextFile).annotations) && r.error == Load(next.value, nextFile).error
    ensures Load(current, currentFile).error.None? && next.None? ==> r.error.None?
  {
    var first := Load(current, currentFile);
    if first.error.Some? then Shown(first.annotations, next, first.error)
    else match next
      case None => Shown(first.annotations, None, None)
      case Some(page) =>
        var second := Load(page, nextFile);
        Shown(first.annotations, Some(second.annotations), second.error)
  }

  // ---------------------------------------------------------------------------
  // Round trip

  /** A line that survives being written and read back: no newline, no carriage return at an end. */
  predicate SafeLine(s: string) {
    Lines.NoNewline(s) && Lines.Unpadded(s, CarriageReturn)
  }

  /** An annotation whose free-text fields are safe lines. */
  predicate Storable(a: Annotation) {
    SafeLine(a.text) && SafeLine(a.font.faceName) && SafeLine(a.mode)
  }

  lemma NumberLineSafe(n: int)
    ensures SafeLine(Decimal.IntToString(n))
  {
    var s := Decimal.IntToString(n);
    assert s[0] != '\r' && s[|s| - 1] != '\r';
    assert forall i :: 0 <= i < |s| ==> s[i] != '\n';
  }

  lemma SafeLineUnstripped(s: string)
    requires SafeLine(s)
    ensures Lines.Strip(s, Newline) == s
  {
    if |s| > 0 {
      assert s[0] != '\n' && s[|s| - 1] != '\n';
    }
    Lines.StripUnpadded(s, Newline);
  }

  /** A safe line written with its newline is read back as itself. */
  lemma CleanTerminatedLine(s: string)
    requires SafeLine(s)
    ensures CleanLine(s + "\n") == s
  {
    Lines.StripTerminatedLine(s);
    Lines.StripUnpadded(s, CarriageReturn);
  }

  /** A field whose line is read back as the field itself. */
  predicate SafeField(f: Field) {
    f.Text? ==> SafeLine(f.s)
  }

  lemma FieldsSafe(a: Annotation)
    requires Storable(a)
    ensures forall k :: 0 <= k < 10 ==> SafeField(Fields(a)[k])
    ensures Fields(a)[2] == Text(a.text)
  {
    SafeLineUnstripped(a.text);
  }

  lemma RenderSafe(f: Field)
    requires SafeField(f)
    ensures SafeLine(Render(f))
  {
    if f.Number? {
      NumberLineSafe(f.n);
    }
  }

  lemma RecordLinesSafe(a: Annotation)
    requires Storable(a)
    ensures forall k :: 0 <= k < 10 ==> SafeLine(RecordLines(a)[k])
  {
    FieldsSafe(a);
    forall k | 0 <= k < 10
      ensures SafeLine(RecordLines(a)[k])
    {
      RenderSafe(Fields(a)[k]);
    }
  }

  /** The ten-line blocks of each annotation, in order. */
  function RecordBlocks(annots: seq<Annotation>): (bs: seq<seq<string>>)
    ensures |bs| == |annots|
    ensures forall j :: 0 <= j < |bs| ==> |bs[j]| == 10
  {
    seq(|annots|, i requires 0 <= i < |annots| => RecordLines(annots[i]))
  }

  /** The records are the annotations' blocks, one after another. */
  lemma {:induction false} AllRecordLinesFlat(annots: seq<Annotation>)
    ensures AllRecordLines(annots) == Lines.Flatten(RecordBlocks(annots))
    decreases |annots|
  {
    if |annots| > 0 {
      AllRecordLinesFlat(annots[1..]);
      assert RecordBlocks(annots)[1..] == RecordBlocks(annots[1..]);
    }
  }

  /** Line `10 * i + k` of the records is line `k` of annotation `i`. */
  lemma AllRecordLinesAt(annots: seq<Annotation>, i: nat, k: nat)
    requires i < |annots| && k < 10
    ensures AllRecordLines(annots)[10 * i + k] == RecordLines(annots[i])[k]
  {
    AllRecordLinesFlat(annots);
    Lines.FlattenAt(RecordBlocks(annots), 10, i, k);
  }

  lemma AllRecordLinesSafe(annots: seq<Annotation>)
    requires forall i :: 0 <= i < |annots| ==> Storable(annots[i])
    ensures forall j :: 0 <= j < |AllRecordLines(annots)| ==> SafeLine(AllRecordLines(annots)[j])
  {
    var lines := AllRecordLines(annots);
    forall j | 0 <= j < |lines|
      ensures SafeLine(lines[j])
    {
      var i, k := j / 10, j % 10;
      AllRecordLinesAt(annots, i, k);
      RecordLinesSafe(annots[i]);
    }
  }

  /** The lines Encode writes, before they are joined. */
  function EncodedLines(annots: seq<Annotation>): seq<string> {
    [Decimal.IntToString(|annots|)] + AllRecordLines(annots)
  }

  lemma EncodedLinesSafe(annots: seq<Annotation>)
    requires forall i :: 0 <= i < |annots| ==> Storable(annots[i])
    ensures forall j :: 0 <= j < |EncodedLines(annots)| ==> SafeLine(EncodedLines(annots)[j])
  {
    NumberLineSafe(|annots|);
    AllRecordLinesSafe(annots);
  }

  /** Safe lines written one per line are read back, once cleaned, as themselves. */
  lemma ReadBackSafeLines(lines: seq<string>)
    requires forall j :: 0 <= j < |lines| ==> SafeLine(lines[j])
    ensures CleanLines(Lines.ReadLines(Lines.JoinLines(lines))) == lines
  {
    Lines.ReadJoinedLines(lines);
    var read := Lines.ReadLines(Lines.JoinLines(lines));
    forall j | 0 <= j < |lines|
      ensures CleanLine(read[j]) == lines[j]
    {
      CleanTerminatedLine(lines[j]);
    }
  }

  /** Reading back what was written for storable annotations gives exactly the written lines. */
  lemma ReadBackEncodedLines(annots: seq<Annotation>)
    requires |annots| > 0
    requires forall i :: 0 <= i < |annots| ==> Storable(annots[i])
    ensures CleanLines(Lines.ReadLines(Encode(annots))) == EncodedLines(annots)
  {
    EncodedLinesSafe(annots);
    ReadBackSafeLines(EncodedLines(annots));
  }

  /**
   * Layout of a non-empty record: the count line, then for annotation `i`
   * the ten lines x, y, text, point size, family, style, weight, encoding,
   * face name and mode at lines 1 + 10i .. 10 + 10i.
   */
  lemma EncodeLayout(annots: seq<Annotation>)
    requires |annots| > 0
    requires forall i :: 0 <= i < |annots| ==> Storable(annots[i])
    ensures |Lines.ReadLines(Encode(annots))| == 1 + 10 * |annots|
    ensures Lines.ReadLines(Encode(annots))[0] == Decimal.IntToString(|annots|) + "\n"
    ensures forall i, k :: 0 <= i < |annots| && 0 <= k < 10 ==>
              Lines.ReadLines(Encode(annots))[1 + 10 * i + k] == RecordLines(annots[i])[k] + "\n"
  {
    var lines := EncodedLines(annots);
    EncodedLinesSafe(annots);
    Lines.ReadJoinedLines(lines);
    forall i, k | 0 <= i < |annots| && 0 <= k < 10
      ensures lines[1 + 10 * i + k] == RecordLines(annots[i])[k]
    {
      AllRecordLinesAt(annots, i, k);
    }
  }

  /** A safe field's line is read back, with the field's own kind, as the field. */
  lemma ReadRenderedField(lines: seq<string>, i: nat, f: Field)
    requires SafeField(f)
    requires i < |lines| && lines[i] == Render(f)
    ensures ReadField(lines, i, f.KindOf()) == Success(f)
  {
    match f
    case Number(n) => Decimal.ParseIntToString(n);
    case Text(t) => SafeLineUnstripped(t);
  }

  /** Lines that render the safe fields of a record are read back as those fields. */
  lemma {:induction false} ReadRenderedFields(lines: seq<string>, start: nat, idx: nat, fs: seq<Field>)
    requires start <= idx <= start + 10 <= |lines|
    requires |fs| == 10
    requires forall k :: 0 <= k < 10 ==> fs[k].KindOf() == Schema[k]
    requires forall k :: 0 <= k < 10 ==> SafeField(fs[k]) && lines[start + k] == Render(fs[k])
    ensures ReadFields(lines, start, idx) == Success(fs[idx - start..])
    decreases start + 10 - idx
  {
    var k := idx - start;
    if idx < start + 10 {
      ReadRenderedField(lines, idx, fs[k]);
      ReadRenderedFields(lines, start, idx + 1, fs);
      assert [fs[k]] + fs[k + 1..] == fs[k..];
    } else {
      assert fs[k..] == [];
    }
  }

  /** Ten lines holding the record of a storable annotation decode to it. */
  lemma DecodeStoredRecord(lines: seq<string>, start: nat, a: Annotation)
    requires Storable(a)
    requires start + 10 <= |lines|
    requires forall k :: 0 <= k < 10 ==> lines[start + k] == RecordLines(a)[k]
    ensures DecodeRecord(lines, start) == Success(a)
  {
    var fs := Fields(a);
    FieldsSafe(a);
    assert forall k :: 0 <= k < 10 ==> SafeField(fs[k]);
    assert forall k :: 0 <= k < 10 ==> RecordLines(a)[k] == Render(fs[k]);
    assert forall k :: 0 <= k < 10 ==> lines[start + k] == Render(fs[k]);
    ReadRenderedFields(lines, start, start, fs);
    assert fs[0..] == fs;
  }

  /** The records at `idx`, `idx + 10`, ... decode one by one to `annots`. */
  predicate RecordsAt(read: RecordReader, lines: seq<string>, idx: nat, annots: seq<Annotation>)
    decreases |annots|
  {
    |annots| == 0 || (read(lines, idx) == Success(annots[0]) && RecordsAt(read, lines, idx + 10, annots[1..]))
  }

  /** Every record of the list written after `before` decodes to its annotation. */
  lemma {:induction false} DecodeStoredRecords(before: seq<string>, annots: seq<Annotation>)
    requires forall i :: 0 <= i < |annots| ==> Storable(annots[i])
    ensures RecordsAt(ReadRecord, before + AllRecordLines(annots), |before|, annots)
    decreases |annots|
  {
    if |annots| > 0 {
      var head := RecordLines(annots[0]);
      var tail := AllRecordLines(annots[1..]);
      var lines := before + AllRecordLines(annots);
      assert lines == (before + head) + tail by {
        Lines.Regroup(before, head, tail);
      }
      forall k | 0 <= k < 10
        ensures lines[|before| + k] == head[k]
      {
        Lines.IndexAfter(before, head, tail, k);
      }
      DecodeStoredRecord(lines, |before|, annots[0]);
      DecodeStoredRecords(before + head, annots[1..]);
    }
  }

  /**
   * Reading `|annots| + extra` records where the first `|annots|` decode to
   * `annots` yields `annots` first and then whatever the following lines give.
   */
  lemma {:induction false} DecodeRecordsPrefix(read: RecordReader, lines: seq<string>, idx: nat, annots: seq<Annotation>, extra: nat)
    requires RecordsAt(read, lines, idx, annots)
    ensures var rest := DecodeRecords(read, lines, idx + 10 * |annots|, extra);
            DecodeRecords(read, lines, idx, |annots| + extra) == Decoded(annots + rest.annotations, rest.error)
    decreases |annots|
  {
    if |annots| > 0 {
      var tail := annots[1..];
      DecodeRecordsPrefix(read, lines, idx + 10, tail, extra);
      var rest := DecodeRecords(read, lines, idx + 10 + 10 * |tail|, extra);
      assert idx + 10 + 10 * |tail| == idx + 10 * |annots|;
      assert [annots[0]] + (tail + rest.annotations) == annots + rest.annotations;
    }
  }

  /**
   * Reading records where the first `|annots|` decode to `annots` and the one
   * after them fails yields `annots` and that failure, however many more the
   * count promised.
   */
  lemma PrefixThenStop(read: RecordReader, lines: seq<string>, idx: nat, annots: seq<Annotation>, count: nat, e: LoadError)
    requires |annots| < count
    requires RecordsAt(read, lines, idx, annots)
    requires read(lines, idx + 10 * |annots|) == Failure(e)
    ensures DecodeRecords(read, lines, idx, count) == Decoded(annots, Some(e))
  {
    var extra := count - |annots|;
    DecodeRecordsPrefix(read, lines, idx, annots, extra);
    assert |annots| + extra == count;
    assert annots + [] == annots;
  }

  /** Safe lines headed by a count `n` decode as `n` records read from line 1 on. */
  lemma DecodeCounted(lines: seq<string>, n: nat)
    requires |lines| > 0 && Decimal.ParseInt(lines[0]) == Some(n)
    requires forall j :: 0 <= j < |lines| ==> SafeLine(lines[j])
    ensures Decode(Lines.JoinLines(lines)) == DecodeRecords(ReadRecord, lines, 1, n)
  {
    ReadBackSafeLines(lines);
  }

  lemma CountedLinesSafe(count: string, annots: seq<Annotation>)
    requires SafeLine(count)
    requires forall i :: 0 <= i < |annots| ==> Storable(annots[i])
    ensures forall j :: 0 <= j < 1 + 10 * |annots| ==> SafeLine(([count] + AllRecordLines(annots))[j])
  {
    var lines := [count] + AllRecordLines(annots);
    AllRecordLinesSafe(annots);
    forall j | 0 <= j < |lines|
      ensures SafeLine(lines[j])
    {
      if j > 0 {
        assert lines[j] == AllRecordLines(annots)[j - 1];
      }
    }
  }

  /** A load of a count's records equal to `d`, whose first records decode to `annots`, gives `annots` first. */
  lemma PrefixOfLoad(read: RecordReader, lines: seq<string>, annots: seq<Annotation>, extra: nat, d: Decoded)
    requires d == DecodeRecords(read, lines, 1, |annots| + extra)
    requires RecordsAt(read, lines, 1, annots)
    ensures var rest := DecodeRecords(read, lines, 1 + 10 * |annots|, extra);
            d == Decoded(annots + rest.annotations, rest.error)
  {
    DecodeRecordsPrefix(read, lines, 1, annots, extra);
  }

  /**
   * A count line reading `|annots| + extra` followed by the records of
   * `annots` decodes to `annots` and then whatever reading `extra` more
   * records past them gives.
   */
  lemma DecodeAfterCount(count: string, annots: seq<Annotation>, extra: nat)
    requires SafeLine(count) && Decimal.ParseInt(count) == Some(|annots| + extra)
    requires forall i :: 0 <= i < |annots| ==> Storable(annots[i])
    ensures var lines := [count] + AllRecordLines(annots);
            var rest := DecodeRecords(ReadRecord, lines, 1 + 10 * |annots|, extra);
            Decode(Lines.JoinLines(lines)) == Decoded(annots + rest.annotations, rest.error)
  {
    var lines := [count] + AllRecordLines(annots);
    CountedLinesSafe(count, annots);
    DecodeCounted(lines, |annots| + extra);
    DecodeStoredRecords([count], annots);
    PrefixOfLoad(ReadRecord, lines, annots, extra, Decode(Lines.JoinLines(lines)));
  }

  /** Storable annotations are saved and loaded back as the same list, in the same order. */
  lemma EncodeDecode(annots: seq<Annotation>)
    requires forall i :: 0 <= i < |annots| ==> Storable(annots[i])
    ensures Decode(Encode(annots)) == Decoded(annots, None)
  {
    if |annots| > 0 {
      NumberLineSafe(|annots|);
      Decimal.ParseIntToString(|annots|);
      DecodeAfterCount(Decimal.IntToString(|annots|), annots, 0);
      assert annots + [] == annots;
    }
  }

  /** Saving then loading a page replaces whatever it held with the saved annotations. */
  lemma SaveThenLoad(page: seq<Annotation>, saved: seq<Annotation>)
    requires forall i :: 0 <= i < |saved| ==> Storable(saved[i])
    ensures Load(page, Some(Encode(saved))) == Decoded(saved, None)
  {
    EncodeDecode(saved);
  }

  /**
   * GetAnnotations after both shown pages were saved: each page shows
   * exactly what was saved for it, whatever it held before, and no error.
   */
  lemma SaveThenLoadShown(current: seq<Annotation>, next: seq<Annotation>,
                          saved1: seq<Annotation>, saved2: seq<Annotation>)
    requires forall i :: 0 <= i < |saved1| ==> Storable(saved1[i])
    requires forall i :: 0 <= i < |saved2| ==> Storable(saved2[i])
    ensures LoadShownPages(current, Some(Encode(saved1)), Some(next), Some(Encode(saved2)))
            == Shown(saved1, Some(saved2), None)
  {
    SaveThenLoad(current, saved1);
    SaveThenLoad(next, saved2);
  }

  /**
   * LoadAnnotations aborts at the first record that does not decode: the
   * page keeps exactly the annotations decoded before it, and the error is
   * that record's.  `annots` are the records that did decode, the count line
   * promised more of them.
   */
  lemma MalformedRecordKeepsPrefix(lines: seq<string>, annots: seq<Annotation>, n: nat, e: LoadError)
    requires |lines| > 0 && Decimal.ParseInt(lines[0]) == Some(n) && |annots| < n
    requires RecordsAt(ReadRecord, lines, 1, annots)
    requires DecodeRecord(lines, 1 + 10 * |annots|) == Failure(e)
    ensures DecodeLines(lines) == Decoded(annots, Some(e))
  {
    PrefixThenStop(ReadRecord, lines, 1, annots, n, e);
    DecodeLinesCounted(lines, n);
  }

  /** Lines headed by a count `n` decode as `n` records read from line 1 on. */
  lemma DecodeLinesCounted(lines: seq<string>, n: nat)
    requires |lines| > 0 && Decimal.ParseInt(lines[0]) == Some(n)
    ensures DecodeLines(lines) == DecodeRecords(ReadRecord, lines, 1, n)
  {
  }

  /** Line `k` holds a readable field of the record starting at line `start`. */
  predicate FieldReads(lines: seq<string>, start: nat, k: nat) {
    start <= k < start + 10 && ReadField(lines, k, Schema[k - start]).Success?
  }

  /** Every line from `start` on holds a readable field of the record starting there. */
  predicate CutRecordReads(lines: seq<string>, start: nat) {
    forall k: nat :: start <= k < |lines| ==> FieldReads(lines, start, k)
  }

  /** A record cut short after fields that read fine fails at the first missing line. */
  lemma CutRecordFails(lines: seq<string>, start: nat)
    requires start <= |lines| < start + 10 && CutRecordReads(lines, start)
    ensures DecodeRecord(lines, start) == Failure(MissingLine(|lines|))
  {
    ReadFieldsRunOut(lines, start, start);
  }

  /** A record that runs out of lines after fields that read fine fails at the first missing line. */
  lemma {:induction false} ReadFieldsRunOut(lines: seq<string>, start: nat, idx: nat)
    requires start <= idx <= |lines| < start + 10
    requires forall k: nat :: idx <= k < |lines| ==> FieldReads(lines, start, k)
    ensures ReadFields(lines, start, idx) == Failure(MissingLine(|lines|))
    decreases |lines| - idx
  {
    if idx < |lines| {
      assert FieldReads(lines, start, idx);
      ReadFieldsRunOut(lines, start, idx + 1);
    } else {
      assert ReadField(lines, idx, Schema[idx - start]) == Failure(MissingLine(|lines|));
    }
  }

  /**
   * A file that ends part way through a record, or right after the last
   * whole one, while the count promised more: the load keeps the records
   * before it and stops at the first line that is missing, provided the
   * lines of the cut record that are there read as their fields.
   */
  lemma TruncatedRecordKeepsPrefix(lines: seq<string>, annots: seq<Annotation>, n: nat, m: nat)
    requires m < 10 && |lines| == 1 + 10 * |annots| + m
    requires Decimal.ParseInt(lines[0]) == Some(n) && |annots| < n
    requires RecordsAt(ReadRecord, lines, 1, annots)
    requires CutRecordReads(lines, 1 + 10 * |annots|)
    ensures DecodeLines(lines) == Decoded(annots, Some(MissingLine(|lines|)))
  {
    CutRecordFails(lines, 1 + 10 * |annots|);
    MalformedRecordKeepsPrefix(lines, annots, n, MissingLine(|lines|));
  }

  /**
   * Its records are what a save of `annots` wrote, under a count line that
   * promises one annotation more: the load keeps all of `annots`.
   */
  lemma CountOneTooMany(count: string, annots: seq<Annotation>)
    requires SafeLine(count) && Decimal.ParseInt(count) == Some(|annots| + 1)
    requires forall i :: 0 <= i < |annots| ==> Storable(annots[i])
    ensures var lines := [count] + AllRecordLines(annots);
            RecordsAt(ReadRecord, CleanLines(Lines.ReadLines(Lines.JoinLines(lines))), 1, annots)
  {
    CountedLinesSafe(count, annots);
    ReadBackSafeLines([count] + AllRecordLines(annots));
    DecodeStoredRecords([count], annots);
  }

  /** A record file whose first line is not a number clears the page and adds nothing. */
  lemma BadCountClearsPage(page: seq<Annotation>, count: string, rest: seq<string>)
    requires SafeLine(count) && Decimal.ParseInt(count).None?
    requires forall j :: 0 <= j < |rest| ==> Lines.NoNewline(rest[j])
    ensures Load(page, Some(Lines.JoinLines([count] + rest))) == Decoded([], Some(NotANumber(0)))
  {
    var lines := [count] + rest;
    forall j | 0 <= j < |lines|
      ensures Lines.NoNewline(lines[j])
    {
      if j > 0 {
        assert lines[j] == rest[j - 1];
      }
    }
    Lines.ReadJoinedLines(lines);
    var read := Lines.ReadLines(Lines.JoinLines(lines));
    assert read[0] == count + "\n";
    CleanTerminatedLine(count);
    assert CleanLines(read)[0] == count;
  }
}

=== FILE: decimal.dfy ===
/**
 * Decimal integers in text, as Python 2 writes them with `str(n)` and reads
 * them back with `int(s)`.  Integers are unbounded on both sides, as Python's
 * int/long pair is.
 */
module Decimal {
  import opened Wrappers
  import Lines

  /** The characters C's `isspace` accepts, which `int()` ignores around a number. */
  const Blanks: set<char> := {' ', '\t', '\n', '\U{0B}', '\U{0C}', '\r'}

  predicate IsDigit(c: char) {
    '0' <= c <= '9'
  }

  /** A non-empty run of decimal digits. */
  predicate IsDigits(s: string) {
    |s| > 0 && forall i :: 0 <= i < |s| ==> IsDigit(s[i])
  }

  function DigitChar(d: nat): (c: char)
    requires d < 10
    ensures IsDigit(c)
  {
    (('0' as int) + d) as char
  }

  function DigitValue(c: char): nat
    requires IsDigit(c)
  {
    (c as int) - ('0' as int)
  }

  /** The value of a run of digits, most significant first (leading zeros allowed). */
  function DigitsValue(s: string): nat
    requires forall i :: 0 <= i < |s| ==> IsDigit(s[i])
  {
    if |s| == 0 then 0 else DigitsValue(s[..|s| - 1]) * 10 + DigitValue(s[|s| - 1])
  }

  /** `str(n)` for a non-negative `n`: its digits, with no leading zero. */
  function NatToString(n: nat): (s: string)
    ensures IsDigits(s)
    ensures n < 10 <==> |s| == 1
    decreases n
  {
    if n < 10 then [DigitChar(n)] else NatToString(n / 10) + [DigitChar(n % 10)]
  }

  lemma {:induction false} NatToStringValue(n: nat)
    ensures DigitsValue(NatToString(n)) == n
    decreases n
  {
    var s := NatToString(n);
    if n >= 10 {
      NatToStringValue(n / 10);
      assert s[..|s| - 1] == NatToString(n / 10);
    }
  }

  /** `str` never writes a leading zero, except for zero itself. */
  lemma {:induction false} NatToStringNoLeadingZero(n: nat)
    ensures |NatToString(n)| > 1 ==> NatToString(n)[0] != '0'
    decreases n
  {
    if n >= 100 {
      NatToStringNoLeadingZero(n / 10);
      assert NatToString(n)[0] == NatToString(n / 10)[0];
    } else if n >= 10 {
      assert NatToString(n)[0] == DigitChar(n / 10);
    }
  }

  /** A leading zero adds nothing to the value of a run of digits. */
  lemma {:induction false} LeadingZeroValue(d: string)
    requires forall i :: 0 <= i < |d| ==> IsDigit(d[i])
    ensures DigitsValue("0" + d) == DigitsValue(d)
    decreases |d|
  {
    var s := "0" + d;
    if |d| > 0 {
      var init := d[..|d| - 1];
      LeadingZeroValue(init);
      assert s[..|s| - 1] == "0" + init;
      assert s[|s| - 1] == d[|d| - 1];
    } else {
      assert s[..|s| - 1] == "";
    }
  }

  /** `str(n)`: a minus sign for negative numbers, then the digits of the magnitude. */
  function IntToString(n: int): (s: string)
    ensures |s| > 0
    ensures forall i :: 0 <= i < |s| ==> IsDigit(s[i]) || s[i] == '-'
    ensures s[0] == '-' <==> n < 0
  {
    if n < 0 then "-" + NatToString(-n) else NatToString(n)
  }

  /**
   * Python 2's `int(s)`: blanks around the number are ignored, an optional
   * sign may be followed by blanks, then at least one decimal digit; anything
   * else raises ValueError, modelled as None.
   */
  function ParseInt(s: string): (r: Option<int>)
    ensures r.Some? ==> exists i :: 0 <= i < |s| && IsDigit(s[i])
  {
    var t := Lines.Strip(s, Blanks);
    Lines.StripKeepsChars(s, Blanks);
    if |t| > 0 && (t[0] == '-' || t[0] == '+') then
      var digits := Lines.StripLeft(t[1..], Blanks);
      Lines.StripKeepsChars(t[1..], Blanks);
      var magnitude: int := if IsDigits(digits) then DigitsValue(digits) else 0;
      if IsDigits(digits) then
        assert digits[0] in t[1..];
        assert digits[0] in t && IsDigit(digits[0]);
        Some(if t[0] == '-' then -magnitude else magnitude)
      else
        None
    else if IsDigits(t) then
      assert t[0] in s && IsDigit(t[0]);
      Some(DigitsValue(t))
    else
      None
  }

  /** A number written by `str` is read back by `int` as itself. */
  lemma ParseIntToString(n: int)
    ensures ParseInt(IntToString(n)) == Some(n)
  {
    if n < 0 {
      ParseNegative(-n);
    } else {
      ParseNatural(n);
    }
  }

  lemma DigitsUnpadded(s: string)
    requires IsDigits(s)
    ensures Lines.Unpadded(s, Blanks)
  {
    assert IsDigit(s[0]) && IsDigit(s[|s| - 1]);
  }

  lemma ParseNatural(n: nat)
    ensures ParseInt(NatToString(n)) == Some(n)
  {
    var s := NatToString(n);
    DigitsUnpadded(s);
    Lines.StripUnpadded(s, Blanks);
    NatToStringValue(n);
    assert IsDigit(s[0]);
  }

  lemma ParseNegative(m: nat)
    requires m > 0
    ensures ParseInt("-" + NatToString(m)) == Some(-(m as int))
  {
    var d := NatToString(m);
    var s := "-" + d;
    DigitsUnpadded(d);
    assert s[0] == '-' && s[|s| - 1] == d[|d| - 1];
    Lines.StripUnpadded(s, Blanks);
    var t := Lines.Strip(s, Blanks);
    assert t == s;
    assert t[1..] == d;
    var digits := Lines.StripLeft(t[1..], Blanks);
    assert digits == d;
    NatToStringValue(m);
    assert DigitsValue(digits) == m;
  }
}

=== FILE: keys.dfy ===
/**
 * OnKeyDown: a key code becomes a character, the character selects one
 * action, and the actions that change the view or the piece's bookmarks are
 * applied.  A piece is seen only through its current page and its bookmark
 * table (slot to page and view position), which AddBookmark and
 * GoToBookmark use.
 */
module Keys {
  import opened Wrappers
  import Navigation

  /**
   * wxPython's codes for the down arrow (WXK_DOWN) and the up arrow (WXK_UP),
   * the only key codes above 255 that do anything.  The handler turns
   * forward on 317 and back on 315; its comments name the two the other way
   * round.
   */
  const DownArrow: nat := 317
  const UpArrow: nat := 315

  /** The key code as a character: `chr` below 256, the two arrows as `f` and `b`, nothing for other codes. */
  function KeyChar(code: nat): (ck: Option<char>)
    ensures code > 255 && ck.Some? ==> ck.value == 'f' || ck.value == 'b'
    ensures code <= 255 ==> ck.Some? && ck.value as int == code
  {
    if code > 255 then
      if code == DownArrow then Some('f')
      else if code == UpArrow then Some('b')
      else None
    else
      Some(code as char)
  }

  /** Exactly the down arrow and the `f` key read as `f`; exactly the up arrow and the `b` key read as `b`. */
  lemma KeyCharArrows(code: nat)
    ensures KeyChar(code) == Some('f') <==> code == DownArrow || code == 'f' as int
    ensures KeyChar(code) == Some('b') <==> code == UpArrow || code == 'b' as int
  {
  }

  datatype Action =
    | Escape | Quit | PageForward | PageBackward | NextPiece | GoToPiece | PreviousPiece
    | LoadProgram | LoadPiece | SetOptions | AddAnnotation | RemoveAnnotations
    | SpeedUpTimer | SlowDownTimer | ToggleTimer | ToggleView | LargerFont | SmallerFont
    | GoToStart | RemoveAllBookmarks | Recall(slot: nat) | SetBookmark(slot: nat) | Ignore

  /** The shifted digit keys 1 to 9 of a US keyboard; the one at index `i` sets slot `i + 1`. */
  const ShiftDigits: string := "!@#$%^&*("

  predicate IsSlotDigit(c: char) {
    '1' <= c <= '9'
  }

  function SlotOf(c: char): (slot: nat)
    requires IsSlotDigit(c)
    ensures 1 <= slot <= 9
  {
    (c as int) - ('0' as int)
  }

  /** The action of every character that is not a bookmark key. */
  function CommandAction(c: char): Action {
    match c
    case '\U{1B}' => Escape
    case 'x' => Quit
    case 'f' => PageForward
    case ' ' => PageForward
    case 'b' => PageBackward
    case 'F' => NextPiece
    case 'G' => GoToPiece
    case 'B' => PreviousPiece
    case 'L' => LoadProgram
    case 'l' => LoadPiece
    case 'O' => SetOptions
    case 'A' => AddAnnotation
    case 'R' => RemoveAnnotations
    case 'q' => SpeedUpTimer
    case 's' => SlowDownTimer
    case 't' => ToggleTimer
    case 'v' => ToggleView
    case '>' => LargerFont
    case '.' => LargerFont
    case '<' => SmallerFont
    case ',' => SmallerFont
    case '0' => GoToStart
    case '-' => RemoveAllBookmarks
    case _ => Ignore
  }

  /** Index of `c` in ShiftDigits, or 9 when it is not one of them. */
  function ShiftIndex(c: char): (i: nat)
    ensures i <= 9
    ensures i < 9 ==> ShiftDigits[i] == c
    ensures i == 9 ==> c !in ShiftDigits
  {
    if c == '!' then 0 else if c == '@' then 1 else if c == '#' then 2
    else if c == '$' then 3 else if c == '%' then 4 else if c == '^' then 5
    else if c == '&' then 6 else if c == '*' then 7 else if c == '(' then 8
    else 9
  }

  /** OnKeyDown's dispatch as written: the `8` key recalls slot 1. */
  function KeyAction(ck: Option<char>): (a: Action)
    ensures a.Recall? ==> ck.Some? && IsSlotDigit(ck.value) && a.slot != 8
    ensures a.SetBookmark? ==> ck.Some? && ck.value in ShiftDigits
  {
    match ck
    case None => Ignore
    case Some(c) =>
      if IsSlotDigit(c) then Recall(if c == '8' then 1 else SlotOf(c))
      else if ShiftIndex(c) < 9 then SetBookmark(ShiftIndex(c) + 1)
      else CommandAction(c)
  }

  /** The dispatch with every digit recalling its own slot. */
  function IntendedKeyAction(ck: Option<char>): (a: Action)
    ensures a.Recall? ==> ck.Some? && IsSlotDigit(ck.value) && a.slot == SlotOf(ck.value)
    ensures a.SetBookmark? ==> ck.Some? && ck.value in ShiftDigits
  {
    match ck
    case None => Ignore
    case Some(c) =>
      if IsSlotDigit(c) then Recall(SlotOf(c))
      else if ShiftIndex(c) < 9 then SetBookmark(ShiftIndex(c) + 1)
      else CommandAction(c)
  }

  /** Both dispatches agree on every key except `8`. */
  lemma DispatchesDifferOnlyOnEight(ck: Option<char>)
    ensures KeyAction(ck) != IntendedKeyAction(ck) <==> ck == Some('8')
  {
  }

  /** Shift-digit `i + 1` sets slot `i + 1` and the digit key recalls it again, for every slot. */
  lemma IntendedSlotsMatch(i: nat)
    requires i < 9
    ensures IntendedKeyAction(Some(ShiftDigits[i])) == SetBookmark(i + 1)
    ensures IntendedKeyAction(Some(('1' as int + i) as char)) == Recall(i + 1)
  {
    assert ShiftIndex(ShiftDigits[i]) == i;
  }

  /** As written, slot 8 can be set with `*` but no key ever recalls it. */
  lemma SlotEightNeverRecalled(ck: Option<char>)
    ensures KeyAction(Some('*')) == SetBookmark(8)
    ensures KeyAction(ck) != Recall(8)
    ensures KeyAction(Some('8')) == Recall(1)
  {
  }

  // ---------------------------------------------------------------------------
  // The state the keys act on

  /** A bookmark: the page number and the view position when it was set. */
  datatype Bookmark = Bookmark(page: int, x: int, y: int)

  /** A piece as the frame sees it: its current page, if any, and its bookmark table. */
  datatype Piece = Piece(current: Option<int>, bookmarks: map<nat, Bookmark>)

  /** AddBookmark: the slot now holds the page and position, replacing what it held. */
  function AddBookmark(p: Piece, page: int, x: int, y: int, slot: nat): (q: Piece)
    ensures q.current == p.current
    ensures slot in q.bookmarks && q.bookmarks[slot] == Bookmark(page, x, y)
    ensures forall k :: k in p.bookmarks && k != slot ==> k in q.bookmarks && q.bookmarks[k] == p.bookmarks[k]
    ensures q.bookmarks.Keys == p.bookmarks.Keys + {slot}
  {
    p.(bookmarks := p.bookmarks[slot := Bookmark(page, x, y)])
  }

  /** GoToBookmark: a set slot makes its page current and gives back its position; an empty slot gives nothing. */
  function GoToBookmark(p: Piece, slot: nat): (r: (Piece, Option<(int, int)>))
    ensures r.1.Some? <==> slot in p.bookmarks
    ensures r.0.bookmarks == p.bookmarks
    ensures slot in p.bookmarks ==>
              r.0.current == Some(p.bookmarks[slot].page)
              && r.1 == Some((p.bookmarks[slot].x, p.bookmarks[slot].y))
    ensures slot !in p.bookmarks ==> r.0 == p
  {
    if slot in p.bookmarks then
      var b := p.bookmarks[slot];
      (p.(current := Some(b.page)), Some((b.x, b.y)))
    else
      (p, None)
  }

  /** The frame: its view and the current piece, if one is loaded. */
  datatype Viewer = Viewer(view: Navigation.View, piece: Option<Piece>)

  /**
   * The outside answers one key may need: the screen geometry, whether the
   * piece turns when asked, the page that is current after a turn, the
   * drawn height of that page, and the program's current piece after it
   * moves to the next or previous piece (none past either end).
   */
  datatype Env = Env(screen: Navigation.Screen, turns: bool, pageAfterTurn: Option<int>, newPageHeight: Option<int>,
                     switchedPiece: Option<Piece>)

  /** Applies a page turn's move to the viewer. */
  function Turned(w: Viewer, p: Piece, m: Navigation.Move, env: Env): Viewer {
    Viewer(w.view.(ypos := m.ypos), Some(if m.turned then p.(current := env.pageAfterTurn) else p))
  }

  /**
   * The effect of an action on the view and the piece.  Actions that only
   * open dialogs, change timers or fonts, or quit leave both unchanged.
   */
  function HandleAction(w: Viewer, a: Action, env: Env): (r: Viewer)
    ensures w.piece.None? && !a.GoToStart? && !a.ToggleView? ==> r == w
    ensures a.SetBookmark? || a.Recall? || a.RemoveAllBookmarks? ==> r.view.mode == w.view.mode
    ensures !a.NextPiece? && !a.PreviousPiece? ==> (r.piece.Some? <==> w.piece.Some?)
    ensures (a.NextPiece? || a.PreviousPiece?) && w.piece.Some? ==>
              r.piece == env.switchedPiece && r.view.ypos == 0
              && r.view.xpos == w.view.xpos && r.view.mode == w.view.mode
    ensures a.PageForward? && w.piece.Some? ==>
              var m := Navigation.Forward(w.view, env.screen, env.turns);
              r.view.ypos == m.ypos
              && r.piece.value.current == (if m.turned then env.pageAfterTurn else w.piece.value.current)
    ensures a.PageBackward? && w.piece.Some? ==>
              var m := Navigation.Backward(w.view, env.screen, env.turns, env.newPageHeight);
              r.view.ypos == m.ypos
              && r.piece.value.current == (if m.turned then env.pageAfterTurn else w.piece.value.current)
    ensures a.ToggleView? ==> r == w.(view := Navigation.ToggleView(w.view))
    ensures a.GoToStart? ==>
              r.view.xpos == 0 && r.view.ypos == 0 && r.view.mode == w.view.mode
              && (w.piece.Some? ==> r.piece == Some(w.piece.value.(current := Some(0))))
    ensures a.RemoveAllBookmarks? && w.piece.Some? ==>
              r.view == w.view && r.piece == Some(w.piece.value.(bookmarks := map[]))
  {
    match a
    case PageForward =>
      if w.piece.None? then w
      else Turned(w, w.piece.value, Navigation.Forward(w.view, env.screen, env.turns), env)
    case PageBackward =>
      if w.piece.None? then w
      else Turned(w, w.piece.value, Navigation.Backward(w.view, env.screen, env.turns, env.newPageHeight), env)
    case ToggleView =>
      w.(view := Navigation.ToggleView(w.view))
    case GoToStart =>
      Viewer(w.view.(xpos := 0, ypos := 0),
             if w.piece.Some? then Some(w.piece.value.(current := Some(0))) else None)
    case RemoveAllBookmarks =>
      if w.piece.None? then w else w.(piece := Some(w.piece.value.(bookmarks := map[])))
    case Recall(slot) =>
      if w.piece.None? then w
      else
        var (p, pos) := GoToBookmark(w.piece.value, slot);
        if pos.None? then w
        else Viewer(w.view.(xpos := pos.value.0, ypos := pos.value.1), Some(p))
    case SetBookmark(slot) =>
      if w.piece.None? || w.piece.value.current.None? then w
      else
        var p := w.piece.value;
        w.(piece := Some(AddBookmark(p, p.current.value, w.view.xpos, w.view.ypos, slot)))
    case NextPiece | PreviousPiece =>
      // the next or previous piece is loaded and the view scrolls to its top
      if w.piece.None? then w else Viewer(w.view.(ypos := 0), env.switchedPiece)
    case _ => w
  }

  /** OnKeyDown as written: it differs from the intended handler only on the `8` key. */
  function HandleKey(w: Viewer, code: nat, env: Env): (r: Viewer)
    ensures KeyChar(code) != Some('8') ==> r == HandleKeyIntended(w, code, env)
    ensures code == '8' as nat ==> r == HandleAction(w, Recall(1), env)
  {
    DispatchesDifferOnlyOnEight(KeyChar(code));
    HandleAction(w, KeyAction(KeyChar(code)), env)
  }

  /** OnKeyDown with every digit recalling its own slot. */
  function HandleKeyIntended(w: Viewer, code: nat, env: Env): Viewer {
    HandleAction(w, IntendedKeyAction(KeyChar(code)), env)
  }

  /**
   * A bookmark set with a shifted digit is recalled by the digit: whatever
   * the view and current page are meanwhile, as long as the bookmark table
   * is unchanged, the view position and the page come back.
   */
  lemma SetThenRecall(w: Viewer, later: Viewer, i: nat, env: Env, env2: Env)
    requires i < 9
    requires w.piece.Some? && w.piece.value.current.Some?
    requires later.piece.Some?
    requires later.piece.value.bookmarks == HandleKeyIntended(w, ShiftDigits[i] as nat, env).piece.value.bookmarks
    ensures var r := HandleKeyIntended(later, ('1' as int + i) as nat, env2);
            r.view.xpos == w.view.xpos && r.view.ypos == w.view.ypos
            && r.view.mode == later.view.mode
            && r.piece.Some? && r.piece.value.current == w.piece.value.current
  {
    IntendedSlotsMatch(i);
    var c := ('1' as int + i) as char;
    assert (('1' as int + i) as nat) as char == c;
    assert ((ShiftDigits[i] as nat) as char) == ShiftDigits[i];
  }

  /**
   * As written, a bookmark set with `*` (slot 8) is not what `8` brings
   * back: `8` goes to slot 1's bookmark instead.
   */
  lemma EightRecallsSlotOne(w: Viewer, env: Env, b1: Bookmark, b8: Bookmark)
    requires w.piece.Some? && w.piece.value.bookmarks == map[1 := b1, 8 := b8]
    ensures HandleAction(w, KeyAction(Some('8')), env).view.xpos == b1.x
    ensures HandleAction(w, KeyAction(Some('8')), env).piece.value.current == Some(b1.page)
  {
  }

  /** `f`, space and the down arrow all turn forward; `b` and the up arrow turn back. */
  lemma ForwardKeys(w: Viewer, env: Env)
    ensures HandleKey(w, 'f' as nat, env) == HandleKey(w, ' ' as nat, env) == HandleKey(w, DownArrow, env)
    ensures HandleKey(w, 'b' as nat, env) == HandleKey(w, UpArrow, env)
  {
  }

  /** Codes above 255 other than the two arrows change nothing. */
  lemma OtherWideKeysIgnored(w: Viewer, code: nat, env: Env)
    requires code > 255 && code != UpArrow && code != DownArrow
    ensures HandleKey(w, code, env) == w
  {
  }
}

=== FILE: lines.dfy ===
/**
 * Line-oriented text handling as the page turner's record files use it:
 * Python's `file.readlines()`, `str.strip(chars)` and writing each field
 * followed by a newline.  A file's content is its text after the platform's
 * newline translation, so a line break is the single character '\n'.
 */
module Lines {

  /** `s.lstrip(cs)`: the longest prefix made only of characters in `cs` is removed. */
  function StripLeft(s: string, cs: set<char>): (r: string)
    ensures |r| <= |s|
    decreases |s|
  {
    if |s| > 0 && s[0] in cs then StripLeft(s[1..], cs) else s
  }

  /** What `lstrip` leaves: a suffix of `s` that starts outside `cs`, all it dropped being in `cs`. */
  lemma {:induction false} StripLeftShape(s: string, cs: set<char>)
    ensures StripLeft(s, cs) == s[|s| - |StripLeft(s, cs)|..]
    ensures |StripLeft(s, cs)| > 0 ==> StripLeft(s, cs)[0] !in cs
    ensures forall i :: 0 <= i < |s| - |StripLeft(s, cs)| ==> s[i] in cs
    decreases |s|
  {
    if |s| > 0 && s[0] in cs {
      StripLeftShape(s[1..], cs);
    }
  }

  /** `s.rstrip(cs)`: the longest suffix made only of characters in `cs` is removed. */
  function StripRight(s: string, cs: set<char>): (r: string)
    ensures |r| <= |s|
    decreases |s|
  {
    if |s| > 0 && s[|s| - 1] in cs then StripRight(s[..|s| - 1], cs) else s
  }

  /** What `rstrip` leaves: a prefix of `s` that ends outside `cs`, all it dropped being in `cs`. */
  lemma {:induction false} StripRightShape(s: string, cs: set<char>)
    ensures StripRight(s, cs) == s[..|StripRight(s, cs)|]
    ensures |StripRight(s, cs)| > 0 ==> StripRight(s, cs)[|StripRight(s, cs)| - 1] !in cs
    ensures forall i :: |StripRight(s, cs)| <= i < |s| ==> s[i] in cs
    decreases |s|
  {
    if |s| > 0 && s[|s| - 1] in cs {
      StripRightShape(s[..|s| - 1], cs);
    }
  }

  /** `s.strip(cs)`: both ends are stripped. */
  function Strip(s: string, cs: set<char>): string {
    StripRight(StripLeft(s, cs), cs)
  }

  /** Stripping only removes characters: whatever `strip` or `lstrip` leaves was in the string. */
  lemma StripKeepsChars(s: string, cs: set<char>)
    ensures forall c :: c in StripLeft(s, cs) ==> c in s
    ensures forall c :: c in Strip(s, cs) ==> c in s
  {
    StripLeftShape(s, cs);
    StripRightShape(StripLeft(s, cs), cs);
  }

  /** True when `s` neither starts nor ends with a character of `cs`. */
  predicate Unpadded(s: string, cs: set<char>) {
    |s| == 0 || (s[0] !in cs && s[|s| - 1] !in cs)
  }

  lemma StripUnpadded(s: string, cs: set<char>)
    requires Unpadded(s, cs)
    ensures Strip(s, cs) == s
  {
  }

  predicate NoNewline(s: string) {
    forall i :: 0 <= i < |s| ==> s[i] != '\n'
  }

  /** A line without newlines, read back with the newline it was written with, strips to itself. */
  lemma StripTerminatedLine(s: string)
    requires NoNewline(s)
    ensures Strip(s + "\n", {'\n'}) == s
  {
    var t := s + "\n";
    var l := StripLeft(t, {'\n'});
    if |s| > 0 {
      assert t[0] == s[0];
      assert l == t;
    } else {
      assert l == "";
    }
    assert StripRight(l, {'\n'}) == s by {
      if |s| > 0 {
        assert l[..|l| - 1] == s;
        assert s[|s| - 1] != '\n';
      }
    }
  }

  /** Index just past the first line of `s`: past its first '\n', or the end of `s` when it has none. */
  function LineEnd(s: string): (k: nat)
    requires |s| > 0
    ensures 0 < k <= |s|
    ensures forall i :: 0 <= i < k - 1 ==> s[i] != '\n'
    ensures k < |s| ==> s[k - 1] == '\n'
    decreases |s|
  {
    if s[0] == '\n' || |s| == 1 then 1 else 1 + LineEnd(s[1..])
  }

  /**
   * `file.readlines()`: the content cut after every '\n'; each line keeps its
   * newline, and a last line without one is still a line.
   */
  function ReadLines(s: string): (lines: seq<string>)
    ensures |lines| == 0 <==> |s| == 0
    ensures forall i :: 0 <= i < |lines| ==> |lines[i]| > 0
    decreases |s|
  {
    if |s| == 0 then [] else
      var k := LineEnd(s);
      [s[..k]] + ReadLines(s[k..])
  }

  function Concat(lines: seq<string>): string {
    if |lines| == 0 then "" else lines[0] + Concat(lines[1..])
  }

  /** Reading a file as lines loses and adds no character. */
  lemma {:induction false} ReadLinesLosesNothing(s: string)
    ensures Concat(ReadLines(s)) == s
    decreases |s|
  {
    if |s| > 0 {
      var k := LineEnd(s);
      ReadLinesLosesNothing(s[k..]);
      assert s == s[..k] + s[k..];
    }
  }

  /** Writing each of `lines` followed by a newline, as the record writers do. */
  function JoinLines(lines: seq<string>): string {
    if |lines| == 0 then "" else lines[0] + "\n" + JoinLines(lines[1..])
  }

  lemma FirstLineEnd(l: string, rest: string)
    requires NoNewline(l)
    ensures LineEnd(l + "\n" + rest) == |l| + 1
  {
    var s := l + "\n" + rest;
    var k := LineEnd(s);
    assert s[|l|] == '\n';
    assert forall i :: 0 <= i < |l| ==> s[i] == l[i];
  }

  /** Lines without embedded newlines, written one per line, read back as themselves plus their newline. */
  lemma {:induction false} ReadJoinedLines(lines: seq<string>)
    requires forall i :: 0 <= i < |lines| ==> NoNewline(lines[i])
    ensures |ReadLines(JoinLines(lines))| == |lines|
    ensures forall i :: 0 <= i < |lines| ==> ReadLines(JoinLines(lines))[i] == lines[i] + "\n"
    decreases |lines|
  {
    if |lines| > 0 {
      var s := JoinLines(lines);
      var rest := JoinLines(lines[1..]);
      assert s == lines[0] + "\n" + rest;
      FirstLineEnd(lines[0], rest);
      var k := |lines[0]| + 1;
      assert s[..k] == lines[0] + "\n";
      assert s[k..] == rest;
      ReadJoinedLines(lines[1..]);
      var read := ReadLines(s);
      assert read == [lines[0] + "\n"] + ReadLines(rest);
      forall i | 0 <= i < |lines|
        ensures read[i] == lines[i] + "\n"
      {
        if i > 0 {
          assert read[i] == ReadLines(rest)[i - 1];
          assert lines[1..][i - 1] == lines[i];
        }
      }
    }
  }

  /** What follows the first element of a sequence is the rest of it. */
  lemma AfterFirst<T>(x: T, rest: seq<T>)
    ensures ([x] + rest)[1..1 + |rest|] == rest
  {
  }

  lemma Regroup<T>(a: seq<T>, b: seq<T>, c: seq<T>)
    ensures a + (b + c) == (a + b) + c
  {
  }

  /** Element `k` of the middle part of `a + b + c`. */
  lemma IndexAfter<T>(a: seq<T>, b: seq<T>, c: seq<T>, k: nat)
    requires k < |b|
    ensures (a + b + c)[|a| + k] == b[k]
  {
  }

  /** Element `j` of `a + b` past the end of `a`. */
  lemma IndexPast<T>(a: seq<T>, b: seq<T>, j: nat)
    requires |a| <= j < |a| + |b|
    ensures (a + b)[j] == b[j - |a|]
  {
  }

  /** The blocks of `bs`, one after another. */
  function Flatten<T>(bs: seq<seq<T>>): seq<T> {
    if |bs| == 0 then [] else bs[0] + Flatten(bs[1..])
  }

  /** Blocks all of width `w` flatten to `w` items per block. */
  lemma {:induction false} FlattenLength<T>(bs: seq<seq<T>>, w: nat)
    requires forall j :: 0 <= j < |bs| ==> |bs[j]| == w
    ensures |Flatten(bs)| == w * |bs|
    decreases |bs|
  {
    if |bs| > 0 {
      FlattenLength(bs[1..], w);
    }
  }

  /** With blocks all of width `w`, item `w * i + k` is item `k` of block `i`. */
  lemma {:induction false} FlattenAt<T>(bs: seq<seq<T>>, w: nat, i: nat, k: nat)
    requires forall j :: 0 <= j < |bs| ==> |bs[j]| == w
    requires i < |bs| && k < w
    ensures w * i + k < |Flatten(bs)| && Flatten(bs)[w * i + k] == bs[i][k]
    decreases i
  {
    FlattenLength(bs, w);
    var tail := Flatten(bs[1..]);
    assert Flatten(bs) == bs[0] + tail;
    if i > 0 {
      FlattenAt(bs[1..], w, i - 1, k);
      assert w * i + k == w * (i - 1) + k + w;
      IndexPast(bs[0], tail, w * i + k);
    }
  }
}

=== FILE: navigation.dfy ===
/**
 * Where the page turner draws its pages and annotations, and how a page turn
 * moves the view.  In Fit Width mode the current page is drawn at
 * (`xpos`, `ypos`) and the next page directly below it; forwardOnePage and
 * backwardOnePage first scroll by the scroll amount and only turn a page when
 * the scroll has moved the current (or next) page out of the window.  Page
 * heights, the client height and the scroll amount are integers supplied by
 * the caller; whether the piece actually turns is an input too.
 */
module Navigation {
  import opened Wrappers
  import AnnotationCodec

  const TwoPage: string := "Two Page"
  const FitWidth: string := "Fit Width"

  /** The view mode tag and the client position of the current page's top-left corner. */
  datatype View = View(mode: string, xpos: int, ypos: int)

  /** The heights of the two pages as drawn, the client height and the scroll step. */
  datatype Screen = Screen(page1Height: int, page2Height: int, clientHeight: int, scrollAmount: int)

  // ---------------------------------------------------------------------------
  // Visibility

  /**
   * Page1Visible: the current page's rows overlap the window's rows; for a
   * page and a window of positive height, exactly when a row of page 1 is
   * on screen.
   */
  predicate Page1Visible(ypos: int, sc: Screen): (b: bool)
    ensures sc.page1Height > 0 && sc.clientHeight > 0 ==> (b <==> Shows(ypos, sc.page1Height, sc))
  {
    var b := ypos + sc.page1Height > 0 && ypos < sc.clientHeight;
    if sc.page1Height > 0 && sc.clientHeight > 0 then ShowsIff(ypos, sc.page1Height, sc); b else b
  }

  /**
   * Page2Visible: the rows of the page drawn right below the current one
   * overlap the window's rows; for a page and a window of positive height,
   * exactly when a row of page 2 is on screen.
   */
  predicate Page2Visible(ypos: int, sc: Screen): (b: bool)
    ensures sc.page2Height > 0 && sc.clientHeight > 0 ==> (b <==> Shows(Page2Top(ypos, sc), sc.page2Height, sc))
  {
    var b := ypos + sc.page1Height + sc.page2Height > 0 && ypos + sc.page1Height < sc.clientHeight;
    if sc.page2Height > 0 && sc.clientHeight > 0 then ShowsIff(Page2Top(ypos, sc), sc.page2Height, sc); b else b
  }

  /** Row `r` belongs to a page drawn from row `top` on with `height` rows. */
  predicate OnRow(top: int, height: int, r: int) {
    top <= r < top + height
  }

  /** Some row of the window, rows 0 up to the client height, belongs to the page. */
  predicate Shows(top: int, height: int, sc: Screen) {
    exists r :: 0 <= r < sc.clientHeight && OnRow(top, height, r)
  }

  lemma ShowsIff(top: int, height: int, sc: Screen)
    requires height > 0 && sc.clientHeight > 0
    ensures Shows(top, height, sc) <==> top + height > 0 && top < sc.clientHeight
  {
    if top + height > 0 && top < sc.clientHeight {
      var r := if top < 0 then 0 else top;
      assert OnRow(top, height, r);
    }
  }

  /** Fit Width draws the next page at the current page's top plus the current page's height. */
  function Page2Top(ypos: int, sc: Screen): int {
    ypos + sc.page1Height
  }

  // ---------------------------------------------------------------------------
  // Scrolling and page turns

  /** ScrollUp: the pages move up by the scroll amount, which ScrollDown takes back. */
  function ScrollUp(ypos: int, sc: Screen): (r: int)
    ensures ScrollDown(r, sc) == ypos
  {
    ypos - sc.scrollAmount
  }

  /** ScrollDown: every row of a page drawn from `ypos` on is drawn the scroll amount lower. */
  function ScrollDown(ypos: int, sc: Screen): (r: int)
    ensures forall h, row :: OnRow(ypos, h, row) <==> OnRow(r, h, row + sc.scrollAmount)
  {
    ypos + sc.scrollAmount
  }

  lemma ScrollDownUndoesScrollUp(ypos: int, sc: Screen)
    ensures ScrollDown(ScrollUp(ypos, sc), sc) == ypos
    ensures ScrollUp(ScrollDown(ypos, sc), sc) == ypos
  {
  }

  /**
   * The outcome of a page turn request: the new `ypos`, whether the piece
   * was asked to turn, and whether it did.
   */
  datatype Move = Move(ypos: int, asked: bool, turned: bool)

  /**
   * forwardOnePage for a view on a loaded piece.  `turns` is what the piece's
   * TurnForward answers if it is asked.
   */
  function Forward(v: View, sc: Screen, turns: bool): (m: Move)
    ensures m.turned ==> m.asked && turns
    ensures v.mode == FitWidth ==> (m.asked <==> !Page1Visible(v.ypos - sc.scrollAmount, sc))
    ensures v.mode == FitWidth && m.asked ==> m.turned == turns
    ensures v.mode == FitWidth ==>
              m.ypos == v.ypos - sc.scrollAmount + (if m.turned then sc.page1Height else 0)
    ensures v.mode != FitWidth ==> m.ypos == v.ypos
    ensures v.mode == TwoPage ==> m.asked && m.turned == turns
  {
    if v.mode == FitWidth then
      var y := ScrollUp(v.ypos, sc);
      if Page1Visible(y, sc) then Move(y, false, false)
      else if turns then Move(y + sc.page1Height, true, true)
      else Move(y, true, false)
    else if v.mode == TwoPage then
      Move(v.ypos, true, turns)
    else
      Move(v.ypos, false, false)
  }

  /**
   * backwardOnePage for a view on a loaded piece.  `turns` is what the
   * piece's TurnBackward answers if it is asked; `newPageHeight` is the drawn
   * height of the page that is current after the turn, or None when the
   * piece has no current page then.
   */
  function Backward(v: View, sc: Screen, turns: bool, newPageHeight: Option<int>): (m: Move)
    ensures m.turned ==> m.asked && turns
    ensures v.mode == FitWidth ==> (m.asked <==> !Page2Visible(v.ypos + sc.scrollAmount, sc))
    ensures v.mode == FitWidth && m.asked ==> m.turned == turns
    ensures v.mode == FitWidth ==>
              m.ypos == v.ypos + sc.scrollAmount
                        - (if m.turned && newPageHeight.Some? then newPageHeight.value else 0)
    ensures v.mode != FitWidth ==> m.ypos == v.ypos
    ensures v.mode == TwoPage ==> m.asked && m.turned == turns
  {
    if v.mode == FitWidth then
      var y := ScrollDown(v.ypos, sc);
      if Page2Visible(y, sc) then Move(y, false, false)
      else if !turns then Move(y, true, false)
      else match newPageHeight
        case Some(h) => Move(y - h, true, true)
        case None => Move(y, true, true)
    else if v.mode == TwoPage then
      Move(v.ypos, true, turns)
    else
      Move(v.ypos, false, false)
  }

  /** While page 1 is still on screen after the scroll, Fit Width forward only scrolls. */
  lemma ForwardOnlyScrolls(v: View, sc: Screen, turns: bool)
    requires v.mode == FitWidth && Page1Visible(ScrollUp(v.ypos, sc), sc)
    ensures Forward(v, sc, turns) == Move(v.ypos - sc.scrollAmount, false, false)
  {
  }

  /**
   * A Fit Width forward turn draws the new current page exactly where the
   * next page was drawn after the scroll: it does not jump on screen.
   */
  lemma ForwardKeepsNextPageInPlace(v: View, sc: Screen)
    requires v.mode == FitWidth && Forward(v, sc, true).turned
    ensures Forward(v, sc, true).ypos == Page2Top(ScrollUp(v.ypos, sc), sc)
  {
  }

  /**
   * A Fit Width backward turn draws the old current page exactly where it
   * was after the scroll, now as the page below the new current one.
   */
  lemma BackwardKeepsOldPageInPlace(v: View, sc: Screen, after: Screen, h: int)
    requires v.mode == FitWidth && Backward(v, sc, true, Some(h)).turned
    requires after.page1Height == h
    ensures Page2Top(Backward(v, sc, true, Some(h)).ypos, after) == ScrollDown(v.ypos, sc)
  {
  }

  /**
   * Turning forward and then back again in Fit Width returns the view to
   * where it started: after the forward turn the old next page is page 1,
   * and the page turned back to is the one that was left.
   */
  lemma ForwardThenBackward(v: View, sc: Screen, after: Screen)
    requires v.mode == FitWidth
    requires !Page1Visible(ScrollUp(v.ypos, sc), sc)
    requires after.page1Height == sc.page2Height && after.scrollAmount == sc.scrollAmount
    requires !Page2Visible(Forward(v, sc, true).ypos + sc.scrollAmount, after)
    ensures Backward(v.(ypos := Forward(v, sc, true).ypos), after, true, Some(sc.page1Height)).ypos == v.ypos
  {
  }

  /** A forward scroll that turns nothing is undone by a backward scroll that turns nothing. */
  lemma ScrollForwardThenBack(v: View, sc: Screen, turns: bool)
    requires v.mode == FitWidth
    requires Page1Visible(ScrollUp(v.ypos, sc), sc) && Page2Visible(v.ypos, sc)
    ensures Backward(v.(ypos := Forward(v, sc, turns).ypos), sc, turns, None) == Move(v.ypos, false, false)
  {
  }

  /** The `v` key: Two Page becomes Fit Width, anything else becomes Two Page, and the view returns to the top. */
  function ToggleView(v: View): (w: View)
    ensures w.mode == TwoPage || w.mode == FitWidth
    ensures w.mode != v.mode
    ensures v.mode != TwoPage ==> w.mode == TwoPage
    ensures w.xpos == v.xpos && w.ypos == 0
  {
    if v.mode == TwoPage then View(FitWidth, v.xpos, 0) else View(TwoPage, v.xpos, 0)
  }

  /** Toggling twice from one of the two known modes comes back to it, at the top. */
  lemma ToggleViewTwice(v: View)
    requires v.mode == TwoPage || v.mode == FitWidth
    ensures ToggleView(ToggleView(v)) == v.(ypos := 0)
  {
  }

  // ---------------------------------------------------------------------------
  // Coordinates and annotations

  /** Map2Image: a position relative to the current page's corner, as a window position; Map2Screen maps it back. */
  function Map2Image(v: View, x: int, y: int): (r: (int, int))
    ensures Map2Screen(v, r.0, r.1) == (x, y)
  {
    (x + v.xpos, y + v.ypos)
  }

  /** Map2Screen: a window position, as a position relative to the current page's corner, which is the origin. */
  function Map2Screen(v: View, x: int, y: int): (r: (int, int))
    ensures r == (0, 0) <==> x == v.xpos && y == v.ypos
  {
    (x - v.xpos, y - v.ypos)
  }

  lemma MapsAreInverse(v: View, x: int, y: int)
    ensures var (px, py) := Map2Screen(v, x, y); Map2Image(v, px, py) == (x, y)
    ensures var (wx, wy) := Map2Image(v, x, y); Map2Screen(v, wx, wy) == (x, y)
  {
  }

  /** Text DrawImages writes, with its font, at a window position. */
  datatype Placement = Placement(text: string, font: AnnotationCodec.Font, x: int, y: int)

  /** Where an annotation of a page drawn `dx` to the right of the current one is written. */
  function PlaceAt(v: View, a: AnnotationCodec.Annotation, dx: int): Placement {
    var (x, y) := Map2Image(v, a.x, a.y);
    Placement(a.text, a.font, x + dx, y)
  }

  /** The annotations of one page that DrawImages writes: those tagged with the current view mode, in order. */
  function DrawnOn(v: View, annots: seq<AnnotationCodec.Annotation>, dx: int): (r: seq<Placement>)
    ensures |r| <= |annots|
    decreases |annots|
  {
    if |annots| == 0 then []
    else
      var rest := DrawnOn(v, annots[..|annots| - 1], dx);
      var a := annots[|annots| - 1];
      if a.mode == v.mode then rest + [PlaceAt(v, a, dx)] else rest
  }

  /** A placement is drawn exactly when some annotation of the page carries the view's mode and is placed there. */
  lemma {:induction false} DrawnOnIff(v: View, annots: seq<AnnotationCodec.Annotation>, dx: int, p: Placement)
    ensures p in DrawnOn(v, annots, dx) <==>
            exists i :: 0 <= i < |annots| && annots[i].mode == v.mode && PlaceAt(v, annots[i], dx) == p
    decreases |annots|
  {
    if |annots| > 0 {
      var init := annots[..|annots| - 1];
      DrawnOnIff(v, init, dx, p);
      if exists i :: 0 <= i < |init| && init[i].mode == v.mode && PlaceAt(v, init[i], dx) == p {
        var i :| 0 <= i < |init| && init[i].mode == v.mode && PlaceAt(v, init[i], dx) == p;
        assert annots[i] == init[i];
      }
      if exists i :: 0 <= i < |annots| && annots[i].mode == v.mode && PlaceAt(v, annots[i], dx) == p {
        var i :| 0 <= i < |annots| && annots[i].mode == v.mode && PlaceAt(v, annots[i], dx) == p;
        if i < |init| {
          assert init[i] == annots[i];
        }
      }
    }
  }

  /**
   * DrawImages: the current page's annotations for the view mode, then, in
   * Two Page mode only, the next page's, shifted right by the width of the
   * current page.
   */
  function Drawn(v: View, current: Option<seq<AnnotationCodec.Annotation>>,
                 next: Option<seq<AnnotationCodec.Annotation>>, page1Width: int): (r: seq<Placement>)
    ensures v.mode != TwoPage ==> r == (if current.Some? then DrawnOn(v, current.value, 0) else [])
    ensures current.None? && next.None? ==> r == []
    ensures current.Some? ==> forall p :: p in DrawnOn(v, current.value, 0) ==> p in r
    ensures v.mode == TwoPage && next.Some? ==> forall p :: p in DrawnOn(v, next.value, page1Width) ==> p in r
    ensures forall p :: p in r ==>
              (current.Some? && p in DrawnOn(v, current.value, 0))
              || (v.mode == TwoPage && next.Some? && p in DrawnOn(v, next.value, page1Width))
  {
    (if current.Some? then DrawnOn(v, current.value, 0) else [])
    + (if next.Some? && v.mode == TwoPage then DrawnOn(v, next.value, page1Width) else [])
  }

  /**
   * In Two Page mode every Two Page annotation of the next page is written
   * at its own position on that page: mapped like the current page's, then
   * shifted right by the current page's width.
   */
  lemma NextPageAnnotationShifted(v: View, current: Option<seq<AnnotationCodec.Annotation>>,
                                  next: seq<AnnotationCodec.Annotation>, page1Width: int, i: nat)
    requires v.mode == TwoPage && i < |next| && next[i].mode == TwoPage
    ensures Placement(next[i].text, next[i].font, next[i].x + v.xpos + page1Width, next[i].y + v.ypos)
            in Drawn(v, current, Some(next), page1Width)
  {
    DrawnOnIff(v, next, page1Width, PlaceAt(v, next[i], page1Width));
  }

  /**
   * OnLeftClick stores a new annotation at the click mapped with Map2Screen
   * and tagged with the current view mode; as long as the view does not
   * move, DrawImages writes it back exactly where the click was.
   */
  lemma ClickedAnnotationDrawnAtClick(v: View, cx: int, cy: int, text: string, font: AnnotationCodec.Font)
    ensures var (x, y) := Map2Screen(v, cx, cy);
            DrawnOn(v, [AnnotationCodec.Annotation(x, y, text, font, v.mode)], 0) == [Placement(text, font, cx, cy)]
  {
    var (x, y) := Map2Screen(v, cx, cy);
    var a := AnnotationCodec.Annotation(x, y, text, font, v.mode);
    assert [a][..0] == [];
  }
}

=== FILE: page_naming.dfy ===
/**
 * The names scanned pages are saved under: `Page01`, `Page02`, ... in the
 * chosen directory, the number written with at least two digits.
 */
module PageNaming {
  import opened Wrappers
  import Decimal
  import Lines
  import Paths

  /** The page number as GetNextPage writes it: a `0` in front of numbers below 10. */
  function PageStr(n: int): (r: string)
    ensures n >= 0 ==> |r| >= 2 && Decimal.IsDigits(r)
  {
    if n < 10 then "0" + Decimal.IntToString(n) else Decimal.IntToString(n)
  }

  /** The file a scanned page goes to: directory, platform separator, `Page`, number, image suffix. */
  function PageFileName(dir: string, n: int, suffix: string, platform: Paths.Platform): (r: string)
    ensures dir + [Paths.Sep(platform)] + "Page" <= r
  {
    dir + [Paths.Sep(platform)] + "Page" + PageStr(n) + suffix
  }

  /** Page numbers 0 to 99 are written with exactly two digits. */
  lemma PageStrTwoDigits(n: int)
    requires 0 <= n < 100
    ensures |PageStr(n)| == 2 && Decimal.IsDigits(PageStr(n))
  {
    if n >= 10 {
      assert Decimal.NatToString(n) == Decimal.NatToString(n / 10) + [Decimal.DigitChar(n % 10)];
    }
  }

  /** `int()` reads a page string back as its number, the padding zero included. */
  lemma PageStrValue(n: nat)
    ensures Decimal.ParseInt(PageStr(n)) == Some(n as int)
  {
    if n < 10 {
      var d := Decimal.NatToString(n);
      var s := "0" + d;
      assert Decimal.IsDigits(s);
      Decimal.DigitsUnpadded(s);
      Lines.StripUnpadded(s, Decimal.Blanks);
      Decimal.LeadingZeroValue(d);
      Decimal.NatToStringValue(n);
      assert s[0] == '0';
    } else {
      Decimal.ParseIntToString(n);
    }
  }

  /** Different page numbers never share a file name. */
  lemma PageStrInjective(m: nat, n: nat)
    requires PageStr(m) == PageStr(n)
    ensures m == n
  {
    PageStrValue(m);
    PageStrValue(n);
  }

  /** Two scanned pages share a file name only when they share a number. */
  lemma PageFileNameInjective(dir: string, m: nat, n: nat, suffix: string, platform: Paths.Platform)
    requires PageFileName(dir, m, suffix, platform) == PageFileName(dir, n, suffix, platform)
    ensures m == n
  {
    var pre := dir + [Paths.Sep(platform)] + "Page";
    var x := PageFileName(dir, m, suffix, platform);
    assert x == pre + PageStr(m) + suffix;
    assert x == pre + PageStr(n) + suffix;
    assert |PageStr(m)| == |PageStr(n)|;
    assert PageStr(m) == x[|pre|..|x| - |suffix|];
    assert PageStr(n) == x[|pre|..|x| - |suffix|];
    PageStrInjective(m, n);
  }

  /** Different page numbers always give different file names. */
  lemma DistinctPagesDistinctFiles(dir: string, m: nat, n: nat, suffix: string, platform: Paths.Platform)
    requires m != n
    ensures PageFileName(dir, m, suffix, platform) != PageFileName(dir, n, suffix, platform)
  {
    if PageFileName(dir, m, suffix, platform) == PageFileName(dir, n, suffix, platform) {
      PageFileNameInjective(dir, m, n, suffix, platform);
    }
  }
}

=== FILE: paths.dfy ===
/**
 * File-name arithmetic of the page turner: the separator vptFrame joins
 * paths with, the `.ann` file that belongs to a page image, and the directory
 * part of a transfer file that TwainBase checks for writability.
 */
module Paths {
  import Lines

  /** Windows builds join with a backslash, every other platform with '/'. */
  datatype Platform = Windows | Posix

  function Sep(p: Platform): char {
    if p == Windows then '\\' else '/'
  }

  /** `name.split('.')[0]`: the text before the first dot, or all of it. */
  function Stem(name: string): (r: string)
    ensures r <= name
    ensures '.' !in r
    ensures |r| < |name| ==> name[|r|] == '.'
  {
    if |name| == 0 || name[0] == '.' then "" else [name[0]] + Stem(name[1..])
  }

  /**
   * ConstructAnnotationFileName: the piece directory, the platform separator,
   * the page file's stem and the extension `.ann`.
   */
  function AnnotationFileName(pieceDir: string, pageFile: string, platform: Platform): (r: string)
    ensures |r| >= |pieceDir| + 5
    ensures r[..|pieceDir| + 1] == pieceDir + [Sep(platform)]
    ensures r[|r| - 4..] == ".ann"
    ensures r[|pieceDir| + 1..|r| - 4] <= pageFile && '.' !in r[|pieceDir| + 1..|r| - 4]
  {
    var r := pieceDir + [Sep(platform)] + Stem(pageFile) + ".ann";
    assert r[|pieceDir| + 1..|r| - 4] == Stem(pageFile);
    r
  }

  /** The stem is exactly the text before the first dot. */
  lemma StemOfDottedName(stem: string, ext: string)
    requires '.' !in stem
    ensures Stem(stem + "." + ext) == stem
  {
    var name := stem + "." + ext;
    var r := Stem(name);
    assert name[|stem|] == '.';
    assert forall j :: 0 <= j < |stem| ==> name[j] == stem[j];
    assert |r| == |stem|;
    assert stem == name[..|stem|];
  }

  /** The annotation file of `stem.ext` is `stem.ann` beside it, whatever the extension. */
  lemma AnnotationFileNameOf(pieceDir: string, stem: string, ext: string, platform: Platform)
    requires '.' !in stem
    ensures AnnotationFileName(pieceDir, stem + "." + ext, platform) == pieceDir + [Sep(platform)] + stem + ".ann"
  {
    StemOfDottedName(stem, ext);
  }

  const Slashes: set<char> := {'/', '\\'}

  /** Index just past the last slash of `p`, or 0 when it has none. */
  function LastSlashEnd(p: string): (i: nat)
    ensures i <= |p|
    ensures i > 0 ==> p[i - 1] in Slashes
    ensures forall j :: i <= j < |p| ==> p[j] !in Slashes
  {
    if |p| == 0 then 0
    else if p[|p| - 1] in Slashes then |p|
    else LastSlashEnd(p[..|p| - 1])
  }

  /**
   * The head of Windows `os.path.split`: a drive letter prefix `X:` is kept
   * aside, the rest is cut after its last slash, and trailing slashes are
   * dropped from the head unless that would leave it empty.
   */
  function DirectoryPart(path: string): (r: string)
    ensures r <= path
  {
    var drive := DrivePrefix(path);
    assert path == drive + path[|drive|..];
    drive + SplitHead(path[|drive|..])
  }

  /** A drive letter prefix `X:`, or nothing. */
  function DrivePrefix(path: string): (d: string)
    ensures d <= path
  {
    if |path| >= 2 && path[1] == ':' then path[..2] else ""
  }

  /** The head of a drive-less path: cut after the last slash, trailing slashes dropped unless none would be left. */
  function SplitHead(rest: string): (r: string)
    ensures r <= rest
  {
    var head := rest[..LastSlashEnd(rest)];
    var trimmed := Lines.StripRight(head, Slashes);
    Lines.StripRightShape(head, Slashes);
    if trimmed == "" then head else trimmed
  }

  /** Index just past the last slash of a directory, a slash and a slash-free name: right after that slash. */
  lemma {:induction false} LastSlashEndJoined(a: string, s: char, name: string)
    requires s in Slashes
    requires forall i :: 0 <= i < |name| ==> name[i] !in Slashes
    ensures LastSlashEnd(a + [s] + name) == |a| + 1
    decreases |name|
  {
    var p := a + [s] + name;
    if |name| > 0 {
      var n := |name|;
      assert p[..|p| - 1] == a + [s] + name[..n - 1];
      LastSlashEndJoined(a, s, name[..n - 1]);
    }
  }

  /** The head of a directory, a slash and a slash-free name is the directory. */
  lemma SplitHeadJoined(x: string, s: char, name: string)
    requires |x| > 0 && x[|x| - 1] !in Slashes && s in Slashes
    requires forall i :: 0 <= i < |name| ==> name[i] !in Slashes
    ensures SplitHead(x + [s] + name) == x
  {
    LastSlashEndJoined(x, s, name);
    assert (x + [s] + name)[..|x| + 1] == x + [s];
    StripTrailingSlash(x, s);
  }

  /** Appending a separator and a name keeps the directory's drive prefix. */
  lemma DrivePrefixJoined(dir: string, s: char, name: string)
    requires |dir| > 0 && !(|dir| == 2 && dir[1] == ':') && s in Slashes
    ensures DrivePrefix(dir + [s] + name) == DrivePrefix(dir)
    ensures |DrivePrefix(dir)| < |dir|
  {
    var path := dir + [s] + name;
    if |dir| >= 2 {
      assert path[..2] == dir[..2];
    }
  }

  /**
   * A path joined from a directory and a plain file name with the
   * platform's separator splits back into that directory, as long as the
   * directory does not end in a slash and is not a bare drive `X:`.
   */
  lemma DirectoryPartOfJoined(dir: string, name: string, platform: Platform)
    requires |dir| > 0 && dir[|dir| - 1] !in Slashes
    requires !(|dir| == 2 && dir[1] == ':')
    requires forall i :: 0 <= i < |name| ==> name[i] !in Slashes
    ensures DirectoryPart(dir + [Sep(platform)] + name) == dir
  {
    var s := Sep(platform);
    var path := dir + [s] + name;
    DrivePrefixJoined(dir, s, name);
    var drive := DrivePrefix(dir);
    var x := dir[|drive|..];
    assert path[|drive|..] == x + [s] + name;
    SplitHeadJoined(x, s, name);
    assert dir == drive + x;
  }

  /** One slash after a name that does not end in a slash is all `rstrip` removes. */
  lemma StripTrailingSlash(x: string, s: char)
    requires |x| > 0 && x[|x| - 1] !in Slashes && s in Slashes
    ensures Lines.StripRight(x + [s], Slashes) == x
  {
    assert (x + [s])[..|x|] == x;
  }

  /** The directory VerifyCanWrite asks about: the split head, or "." when there is none. */
  function WriteCheckDir(path: string): (dir: string)
    ensures |dir| > 0
    ensures DirectoryPart(path) != "" ==> dir == DirectoryPart(path)
    ensures DirectoryPart(path) == "" ==> dir == "."
  {
    var head := DirectoryPart(path);
    if head != "" then head else "."
  }

  /** A bare file name is checked against the working directory. */
  lemma BareNameChecksWorkingDir(name: string)
    requires forall i :: 0 <= i < |name| ==> name[i] !in Slashes
    requires |name| < 2 || name[1] != ':'
    ensures WriteCheckDir(name) == "."
  {
    assert LastSlashEnd(name) == 0;
  }

  /** A file at the root of a drive is checked against that root. */
  lemma DriveRootChecksRoot(drive: char, name: string)
    requires forall i :: 0 <= i < |name| ==> name[i] !in Slashes
    ensures WriteCheckDir([drive, ':', '/'] + name) == [drive, ':', '/']
  {
    var path := [drive, ':', '/'] + name;
    var rest := path[2..];
    assert rest == ['/'] + name;
    assert forall j :: 1 <= j < |rest| ==> rest[j] == name[j - 1];
    assert rest[0] in Slashes;
    assert LastSlashEnd(rest) == 1;
    assert rest[..1] == "/";
    assert Lines.StripRight("/", Slashes) == "";
  }
}

=== FILE: scan_frame.dfy ===
/**
 * The page turner frame's scanning: it starts a scanned piece in a chosen
 * directory, saves each transferred page there as `PageNN` plus the image
 * suffix, and after every page asks whether another one follows.  The
 * frame's OpenScanner (ask for the remembered source) is TwainBase's
 * `PageTurner` variant; its own OnTwainEvent is modelled here.
 */
module ScanFrame {
  import opened Wrappers
  import Paths
  import PageNaming
  import TwainBase

  datatype Frame = Frame(
    twain: TwainBase.Session,
    pageNum: int,
    pageStr: string,
    dirName: string,
    fname: string,           // the file the next transferred page is written to
    suffix: string,          // the image suffix, `.gif` unless changed
    platform: Paths.Platform)

  datatype FrameStep = FrameStep(frame: Frame, calls: seq<TwainBase.Call>, outcome: TwainBase.Outcome)

  /** The frame as its constructor leaves it, with TwainBase's Initialise applied. */
  function NewFrame(s: TwainBase.Session, platform: Paths.Platform): (f: Frame)
    ensures f.pageStr == PageNaming.PageStr(f.pageNum)
    ensures !f.twain.manager && f.twain.source.None? && !f.twain.pending
  {
    Frame(TwainBase.Initialise(s.(variant := TwainBase.PageTurner, sourceName := None)), 1, "01", ".", "", ".gif", platform)
  }

  /**
   * The scanner branch of OnCreatePiece: opens the scanner with the frame's
   * window and the callback, restarts numbering at page 1 and, when a
   * directory is chosen, acquires the first page into `Page01` there.
   */
  function StartScan(f: Frame, host: TwainBase.Host, window: int, dir: Option<string>): (r: FrameStep)
    ensures r.frame.pageNum == 1 && r.frame.pageStr == PageNaming.PageStr(1)
    ensures dir.Some? ==> r.frame.dirName == dir.value
                          && r.frame.fname == PageNaming.PageFileName(dir.value, 1, f.suffix, f.platform)
                          && r.frame.twain.xferMethod == TwainBase.Natively
    ensures dir.None? ==> r.frame.fname == f.fname && r.frame.dirName == f.dirName
    ensures r.frame.suffix == f.suffix && r.frame.platform == f.platform
    ensures TwainBase.SetCallback in r.calls <==> r.frame.twain.manager
    ensures dir.Some? ==> (TwainBase.RequestAcquire in r.calls <==> r.frame.twain.source.Some?)
    ensures dir.Some? && r.frame.twain.source.Some? && !host.requestRaises ==>
              r.frame.twain.pending && r.outcome == TwainBase.Done
    ensures dir.None? ==> TwainBase.RequestAcquire !in r.calls
  {
    var scanner := TwainBase.OpenScanner(f.twain, host, Some(window), Some(TwainBase.DefaultProductName), true);
    var f1 := f.(twain := scanner.session, pageNum := 1, pageStr := "01");
    match dir
    case None => FrameStep(f1, scanner.calls, scanner.outcome)
    case Some(d) =>
      var name := d + [Paths.Sep(f.platform)] + "Page" + f1.pageStr + f.suffix;
      var acq := TwainBase.AcquireNatively(f1.twain, host, name);
      FrameStep(f1.(dirName := d, fname := name, twain := acq.session), scanner.calls + acq.calls, acq.outcome)
  }

  /** GetNextPage: the next page number, its padded string and file name, then a native acquisition. */
  function GetNextPage(f: Frame, host: TwainBase.Host): (r: FrameStep)
    ensures r.frame.pageNum == f.pageNum + 1
    ensures r.frame.pageStr == PageNaming.PageStr(r.frame.pageNum)
    ensures r.frame.fname == PageNaming.PageFileName(f.dirName, r.frame.pageNum, f.suffix, f.platform)
    ensures r.frame.dirName == f.dirName && r.frame.suffix == f.suffix && r.frame.platform == f.platform
    ensures r.frame.twain.xferMethod == TwainBase.Natively
    ensures TwainBase.RequestAcquire in r.calls <==> r.frame.twain.source.Some?
    ensures f.twain.source.Some? && !host.requestRaises ==>
              r.frame.twain.pending && r.outcome == TwainBase.Done
              && r.calls == [TwainBase.SetResolution, TwainBase.RequestAcquire]
  {
    var n := f.pageNum + 1;
    var str := PageNaming.PageStr(n);
    var name := PageNaming.PageFileName(f.dirName, n, f.suffix, f.platform);
    var acq := TwainBase.AcquireNatively(f.twain, host, name);
    FrameStep(f.(pageNum := n, pageStr := str, fname := name, twain := acq.session), acq.calls, acq.outcome)
  }

  /** The frame after GetNextPage was called once per host answer, in order. */
  function ScanPages(f: Frame, hosts: seq<TwainBase.Host>): Frame
    decreases |hosts|
  {
    if |hosts| == 0 then f else ScanPages(GetNextPage(f, hosts[0]).frame, hosts[1..])
  }

  /** After `k` more pages the number has grown by exactly `k` and the file name follows it. */
  lemma {:induction false} ScanPagesNumbering(f: Frame, hosts: seq<TwainBase.Host>)
    requires |hosts| > 0
    ensures ScanPages(f, hosts).pageNum == f.pageNum + |hosts|
    ensures ScanPages(f, hosts).fname
            == PageNaming.PageFileName(f.dirName, f.pageNum + |hosts|, f.suffix, f.platform)
    ensures ScanPages(f, hosts).dirName == f.dirName
    decreases |hosts|
  {
    var g := GetNextPage(f, hosts[0]).frame;
    if |hosts| > 1 {
      ScanPagesNumbering(g, hosts[1..]);
    }
  }

  /**
   * Pages scanned one after another never overwrite each other's files:
   * runs of different lengths from the same frame end on different names.
   */
  lemma ScannedFilesDistinct(f: Frame, early: seq<TwainBase.Host>, late: seq<TwainBase.Host>)
    requires f.pageNum >= 0 && 0 < |early| < |late|
    ensures ScanPages(f, early).fname != ScanPages(f, late).fname
  {
    ScanPagesNumbering(f, early);
    ScanPagesNumbering(f, late);
    PageNaming.DistinctPagesDistinctFiles(f.dirName, f.pageNum + |early|, f.pageNum + |late|, f.suffix, f.platform);
  }

  /** The first page of a scan is never overwritten by the pages that follow it. */
  lemma FirstPageNeverOverwritten(f: Frame, host: TwainBase.Host, window: int, dir: string, hosts: seq<TwainBase.Host>)
    requires |hosts| > 0
    ensures var first := StartScan(f, host, window, Some(dir)).frame;
            ScanPages(first, hosts).fname != first.fname
  {
    var first := StartScan(f, host, window, Some(dir)).frame;
    ScanPagesNumbering(first, hosts);
    PageNaming.DistinctPagesDistinctFiles(dir, 1, 1 + |hosts|, f.suffix, f.platform);
  }

  /**
   * The frame's OnTwainEvent: an image ready clears AcquirePending and
   * transfers into the current page file, then either scans the next page
   * or, when the user has no more, terminates the session; anything raised
   * is caught.  A close request drops the data source without destroying it.
   */
  function OnTwainEvent(f: Frame, host: TwainBase.Host, ev: TwainBase.Event, another: bool): (r: FrameStep)
    ensures ev.CloseRequest? ==> r.frame == f.(twain := f.twain.(source := None)) && r.calls == []
    ensures ev.OtherMessage? ==> r.frame == f && r.calls == []
    ensures ev.XferReady? && !another ==> !r.frame.twain.manager && r.frame.twain.source.None?
    ensures ev.XferReady? && another ==>
              r.frame.pageNum == f.pageNum + 1
              && r.frame.fname == PageNaming.PageFileName(f.dirName, f.pageNum + 1, f.suffix, f.platform)
              && (TwainBase.RequestAcquire in r.calls <==> r.frame.twain.source.Some?)
    ensures ev.XferReady? && !another ==> r.frame.pageNum == f.pageNum && r.frame.fname == f.fname
    ensures ev.XferReady? ==>
              var x := TwainBase.ProcessXFer(f.twain.(pending := false), host, f.fname);
              x.calls <= r.calls && (!another ==> r.frame.twain.pending == x.session.pending)
    ensures ev.XferReady? && f.twain.source.Some? && f.twain.xferMethod == TwainBase.Natively ==>
              |r.calls| > 0 && r.calls[0] == TwainBase.TransferNatively(f.fname)
    ensures !r.outcome.Raised?
    ensures TwainBase.Held(f.twain) ==> TwainBase.Held(r.frame.twain)
  {
    match ev
    case XferReady =>
      var x := TwainBase.ProcessXFer(f.twain.(pending := false), host, f.fname);
      var f1 := f.(twain := x.session);
      if another then
        var next := GetNextPage(f1, host);
        var outcome := match next.outcome
          case Raised(e) => TwainBase.Caught(e)
          case o => o;
        FrameStep(next.frame, x.calls + next.calls, outcome)
      else
        var t := TwainBase.Terminate(f1.twain);
        FrameStep(f1.(twain := t.session), x.calls + t.calls, t.outcome)
    case CloseRequest => FrameStep(f.(twain := f.twain.(source := None)), [], TwainBase.Done)
    case OtherMessage(_) => FrameStep(f, [], TwainBase.Done)
  }

  /**
   * With a source held and every TWAIN answer favourable, a page that is
   * ready is written to the current page file, and the next page is
   * requested under the next name with an acquisition pending again.
   */
  lemma ScanOnePageThenNext(f: Frame, host: TwainBase.Host)
    requires f.twain.manager && f.twain.source.Some? && f.twain.xferMethod == TwainBase.Natively
    requires !host.nativeRaises && !host.requestRaises
    ensures var r := OnTwainEvent(f, host, TwainBase.XferReady, true);
            r.calls == [TwainBase.TransferNatively(f.fname), TwainBase.SetResolution, TwainBase.RequestAcquire]
            && r.outcome == TwainBase.Done
            && r.frame.twain.pending
            && r.frame.fname == PageNaming.PageFileName(f.dirName, f.pageNum + 1, f.suffix, f.platform)
  {
  }
}

=== FILE: startup.dfy ===
/**
 * The startup record `startup.txt` in the program's home directory: the
 * last piece on the first line and the last collection on the second.  It
 * is written when the program closes and read back, with the start panel's
 * labels and choice, when it opens.
 */
module Startup {
  import opened Wrappers
  import opened Lines
  import Paths

  datatype Startup = Startup(lastPiece: Option<string>, lastCollection: Option<string>)

  /** Python's truth value of an optional string: present and non-empty. */
  predicate Truthy(o: Option<string>) {
    o.Some? && |o.value| > 0
  }

  /**
   * SaveStartup: the piece and then the collection, one per line; the
   * collection only after a piece, and nothing at all without a piece.
   */
  function Save(st: Startup): (content: string)
    ensures content == "" <==> !Truthy(st.lastPiece)
  {
    if Truthy(st.lastPiece) then
      if Truthy(st.lastCollection) then JoinLines([st.lastPiece.value, st.lastCollection.value])
      else JoinLines([st.lastPiece.value])
    else ""
  }

  /**
   * The reading half of LoadStartup: a missing file leaves both unset;
   * otherwise the first line, if any, is the piece and the second, if
   * any, the collection, each with newlines stripped from both ends.
   */
  function Load(file: Option<string>): (st: Startup)
    ensures file.None? || file.value == "" ==> st == Startup(None, None)
    ensures file.Some? && file.value != "" ==> st.lastPiece.Some?
    ensures st.lastCollection.Some? ==> st.lastPiece.Some?
  {
    match file
    case None => Startup(None, None)
    case Some(content) =>
      var lines := ReadLines(content);
      Startup(if |lines| > 0 then Some(Strip(lines[0], {'\n'})) else None,
              if |lines| > 1 then Some(Strip(lines[1], {'\n'})) else None)
  }

  /** What a saved record can say: an empty entry counts as no entry. */
  function Normal(st: Startup): Startup {
    if Truthy(st.lastPiece) then
      Startup(st.lastPiece, if Truthy(st.lastCollection) then st.lastCollection else None)
    else Startup(None, None)
  }

  /** Names stored in the record hold no line breaks. */
  predicate Storable(st: Startup) {
    (st.lastPiece.Some? ==> NoNewline(st.lastPiece.value))
    && (st.lastCollection.Some? ==> NoNewline(st.lastCollection.value))
  }

  /** Reading back what was saved gives the saved names, empty ones dropped. */
  lemma SaveThenLoad(st: Startup)
    requires Storable(st)
    ensures Load(Some(Save(st))) == Normal(st)
  {
    if Truthy(st.lastPiece) {
      var p := st.lastPiece.value;
      if Truthy(st.lastCollection) {
        var c := st.lastCollection.value;
        ReadJoinedLines([p, c]);
        StripTerminatedLine(p);
        StripTerminatedLine(c);
      } else {
        ReadJoinedLines([p]);
        StripTerminatedLine(p);
      }
    }
  }

  /** Saving a record that was just read back writes it unchanged. */
  lemma LoadThenSave(st: Startup)
    requires Storable(st)
    ensures Save(Load(Some(Save(st)))) == Save(st)
  {
    SaveThenLoad(st);
  }

  /**
   * The start panel's label for a stored path: what follows the last
   * separator of the platform, or the whole path when it has none.
   */
  function Label(path: string, sep: char): (r: string)
    ensures |r| <= |path| && r == path[|path| - |r|..]
    ensures sep !in r
    ensures |r| < |path| ==> path[|path| - |r| - 1] == sep
  {
    if |path| == 0 || path[|path| - 1] == sep then ""
    else
      var r := Label(path[..|path| - 1], sep) + [path[|path| - 1]];
      assert path[..|path| - 1][|path| - |r|..] == path[|path| - |r|..|path| - 1];
      r
  }

  /** A path made of a directory and a plain name is labelled with the name. */
  lemma {:induction false} LabelOfJoined(dir: string, name: string, sep: char)
    requires sep !in name
    ensures Label(dir + [sep] + name, sep) == name
    decreases |name|
  {
    var path := dir + [sep] + name;
    if |name| > 0 {
      var n := |name|;
      assert path[..|path| - 1] == dir + [sep] + name[..n - 1];
      assert name[n - 1] in name;
      LabelOfJoined(dir, name[..n - 1], sep);
      assert name == name[..n - 1] + [name[n - 1]];
    }
  }

  /** The label of the piece's path on the running platform. */
  function PieceLabel(st: Startup, platform: Paths.Platform): Option<string> {
    if Truthy(st.lastPiece) then Some(Label(st.lastPiece.value, Paths.Sep(platform))) else None
  }

  /** The start panel's choices. */
  datatype Choice = LastPieceChoice | LastCollectionChoice | SelectPieceChoice | SelectCollectionChoice | NoChoice

  /** What the program loads after the start panel closes. */
  datatype Request = LoadLastPiece(dir: string) | LoadProgram(path: Option<string>) | LoadPiece | Nothing

  /**
   * The choice dispatch at the end of LoadStartup: a remembered piece or
   * collection is opened only when one is stored; the select choices open
   * their dialogs.
   */
  function StartRequest(st: Startup, choice: Choice): (r: Request)
    ensures r.LoadLastPiece? <==> choice == LastPieceChoice && Truthy(st.lastPiece)
    ensures r.LoadLastPiece? ==> Some(r.dir) == st.lastPiece
    ensures r.LoadProgram? && r.path.Some? <==> choice == LastCollectionChoice && Truthy(st.lastCollection)
    ensures r.LoadProgram? && r.path.Some? ==> r.path == st.lastCollection
    ensures r == LoadPiece <==> choice == SelectPieceChoice
    ensures r == LoadProgram(None) <==> choice == SelectCollectionChoice
  {
    match choice
    case LastPieceChoice => if Truthy(st.lastPiece) then LoadLastPiece(st.lastPiece.value) else Nothing
    case LastCollectionChoice => if Truthy(st.lastCollection) then LoadProgram(st.lastCollection) else Nothing
    case SelectPieceChoice => LoadPiece
    case SelectCollectionChoice => LoadProgram(None)
    case NoChoice => Nothing
  }

  /**
   * After a save and a fresh start, choosing the last piece reopens the
   * piece that was open, whenever there was one.
   */
  lemma RestartReopensPiece(st: Startup)
    requires Storable(st) && Truthy(st.lastPiece)
    ensures StartRequest(Load(Some(Save(st))), LastPieceChoice) == LoadLastPiece(st.lastPiece.value)
  {
    SaveThenLoad(st);
  }
}

=== FILE: twain_base.dfy ===
/**
 * TwainBase: the scanner session of the page turner.  The session holds a
 * source manager and at most one data source, the transfer method and the
 * AcquirePending flag.  Every TWAIN call is an oracle: what the source
 * manager, the data source and the file system answer is given in a `Host`
 * record, and each operation returns the new session, the TWAIN calls it
 * made, in order, and what it raised or caught.
 */
module TwainBase {
  import opened Wrappers
  import Paths

  /** The file base transfers are written to: AcquireNatively's argument only sets a local. */
  const NativeTransferFile: string := "tmp.bmp"
  /** The transfer file of a by-file transfer when the device names none. */
  const DefaultTransferFile: string := "TWAIN.TMP"
  /** The transfer file substituted when the device's one cannot be written. */
  const OverrideTransferFile: string := "c:/twainxfer.jpg"
  const DefaultProductName: string := "Virtual Page Turner"

  datatype XferMethod = Natively | ByFile

  /**
   * Whose OpenScanner the object runs: TwainBase's own, or the page turner
   * frame's, which asks for the source it used last and remembers it.
   */
  datatype Variant = Base | PageTurner

  datatype Session = Session(
    variant: Variant,
    manager: bool,               // a source manager is held
    source: Option<string>,      // the data source held, by the name it reports
    pending: bool,               // AcquirePending
    xferMethod: XferMethod,
    productName: string,
    window: Option<int>,
    sourceName: Option<string>)  // the frame's SourceName; the base class never sets it

  /** The one structural invariant: a data source is only held alongside its source manager. */
  predicate Held(s: Session) {
    s.source.Some? ==> s.manager
  }

  /** What GetXferFileName answers: it raises, gives nothing, or names a file. */
  datatype NameReply = NameUnsupported | NoName | Named(path: string)

  /** What GetImageInfo answers: it raises, reports no image, or reports one. */
  datatype InfoReply = InfoRaises | NoImage | ImageReady

  /** The answers of the TWAIN library and the file system for one operation. */
  datatype Host = Host(
    managerOpens: bool,           // twain.SourceManager gives a manager
    selected: Option<string>,     // the source OpenSource gives, if any
    requestRaises: bool,          // RequestAcquire raises
    imageInfo: InfoReply,
    nativeRaises: bool,           // the native transfer or writing its bitmap raises
    xferName: NameReply,
    renameRaises: bool,           // SetXferFileName raises
    fileRaises: bool,             // XferImageByFile raises
    writable: string -> bool)     // whether a directory may be written

  datatype Call =
    | CreateManager | DestroyManager | OpenSource(name: Option<string>) | DestroySource
    | SetCallback | SetResolution | RequestAcquire | GetImageInfo
    | TransferNatively(file: string) | GetXferFileName | SetXferFileName(file: string)
    | TransferByFile(file: string)

  /** What can go wrong: a method called on a missing data source, a TWAIN error, an unwritable transfer file. */
  datatype Fault = NoSource | TwainError | CannotWriteTransferFile(path: string)

  /** How an operation ended: normally, with an exception it caught and logged, or with one it let through. */
  datatype Outcome = Done | Caught(fault: Fault) | Raised(fault: Fault)

  datatype Step = Step(session: Session, calls: seq<Call>, outcome: Outcome)

  /** Python's truth value of an optional window handle. */
  predicate Truthy(w: Option<int>) {
    w.Some? && w.value != 0
  }

  /** Initialise: no manager, no source, native transfers, nothing pending. */
  function Initialise(s: Session): (r: Session)
    ensures !r.manager && r.source.None? && !r.pending && r.xferMethod == Natively
    ensures r.variant == s.variant && r.sourceName == s.sourceName
    ensures Held(r)
  {
    s.(manager := false, source := None, productName := DefaultProductName, xferMethod := Natively,
       pending := false, window := None)
  }

  /** Terminate: destroys the source and the manager that are present, then drops both. */
  function Terminate(s: Session): (r: Step)
    ensures !r.session.manager && r.session.source.None?
    ensures r.session.pending == s.pending && r.session.xferMethod == s.xferMethod
    ensures DestroySource in r.calls <==> s.source.Some?
    ensures DestroyManager in r.calls <==> s.manager
    ensures forall c :: c in r.calls ==> c == DestroySource || c == DestroyManager
    ensures r.outcome == Done && Held(r.session)
  {
    var calls := (if s.source.Some? then [DestroySource] else []) + (if s.manager then [DestroyManager] else []);
    Step(s.(source := None, manager := false), calls, Done)
  }

  /** Terminating a terminated session calls nothing and changes nothing. */
  lemma TerminateIdempotent(s: Session)
    ensures var t := Terminate(s).session; Terminate(t) == Step(t, [], Done)
  {
  }

  /** Initialise and Terminate leave the same handles: none. */
  lemma InitialiseAndTerminateAgree(s: Session)
    ensures Initialise(s).manager == Terminate(s).session.manager
    ensures Initialise(s).source == Terminate(s).session.source
  {
  }

  /**
   * OpenScanner: keeps a product name and window it is given, creates a
   * source manager when there is none and stops if that fails; otherwise
   * destroys any data source it holds, opens one (the frame by the name it
   * used last), and registers the callback when asked.
   */
  function OpenScanner(s: Session, host: Host, window: Option<int>, product: Option<string>, useCallback: bool): (r: Step)
    ensures r.outcome == Done
    ensures !r.session.manager ==> r.session.source == s.source && r.calls == [CreateManager]
    ensures r.session.manager ==> r.session.source == host.selected
    ensures r.session.manager && s.source.Some? ==> DestroySource in r.calls
    ensures DestroySource in r.calls ==> s.source.Some?
    ensures SetCallback in r.calls <==> useCallback && r.session.manager
    ensures RequestAcquire !in r.calls
    ensures r.session.manager <==> s.manager || host.managerOpens
    ensures r.session.pending == s.pending && r.session.xferMethod == s.xferMethod
    ensures s.variant == Base ==> r.session.sourceName == s.sourceName
    ensures Held(s) ==> Held(r.session)
  {
    var s1 := s.(productName := if product.Some? && product.value != "" then product.value else s.productName,
                 window := if Truthy(window) then window else s.window);
    var s2 := if s1.manager then s1 else s1.(manager := host.managerOpens);
    var c1 := if s1.manager then [] else [CreateManager];
    if !s2.manager then
      Step(s2, c1, Done)
    else
      var c2 := if s2.source.Some? then [DestroySource] else [];
      var requested := if s2.variant == PageTurner then s2.sourceName else None;
      var remembered := if s2.variant == PageTurner && host.selected.Some? then host.selected else s2.sourceName;
      Step(s2.(source := host.selected, sourceName := remembered),
           c1 + c2 + [OpenSource(requested)] + (if useCallback then [SetCallback] else []),
           Done)
  }

  /** At most one data source is held: when a new one is opened, the one held before was destroyed first. */
  lemma OpenScannerDestroysBeforeOpening(s: Session, host: Host, window: Option<int>, product: Option<string>, useCallback: bool)
    requires s.manager && s.source.Some?
    ensures var r := OpenScanner(s, host, window, product, useCallback);
            |r.calls| >= 2 && r.calls[0] == DestroySource && r.calls[1].OpenSource?
  {
  }

  /** The frame asks for the source it used last and remembers the one it gets. */
  lemma FrameReopensByName(s: Session, host: Host, name: string)
    requires s.variant == PageTurner && s.manager && s.source.None? && s.sourceName == Some(name)
    ensures var r := OpenScanner(s, host, None, None, false);
            r.calls == [OpenSource(Some(name))]
            && r.session.sourceName == (if host.selected.Some? then host.selected else Some(name))
  {
  }

  /**
   * `_Acquire`: opens the scanner when no source is held and gives up if
   * there still is none; otherwise asks for 100 dpi (a failure there is
   * swallowed), requests the acquisition and marks it pending.
   */
  function Acquire(s: Session, host: Host): (r: Step)
    ensures r.session.source.None? ==> r.session.pending == s.pending && r.outcome == Done
    ensures r.session.source.Some? ==> (r.session.pending <==> s.pending || r.outcome == Done)
    ensures RequestAcquire in r.calls <==> r.session.source.Some?
    ensures SetCallback !in r.calls
    ensures r.outcome == Done || r.outcome == Raised(TwainError)
    ensures r.session.xferMethod == s.xferMethod
    ensures Held(s) ==> Held(r.session)
  {
    var first := if s.source.None? then OpenScanner(s, host, None, None, false) else Step(s, [], Done);
    var s1 := first.session;
    if s1.source.None? then
      first
    else
      var calls := first.calls + [SetResolution, RequestAcquire];
      if host.requestRaises then Step(s1, calls, Raised(TwainError))
      else Step(s1.(pending := true), calls, Done)
  }

  /** A successful request always leaves an acquisition pending on a held source. */
  lemma AcquireMarksPending(s: Session, host: Host)
    requires s.source.Some? && !host.requestRaises
    ensures Acquire(s, host) == Step(s.(pending := true), [SetResolution, RequestAcquire], Done)
  {
  }

  /** AcquireNatively: native transfers from now on, then `_Acquire`. */
  function AcquireNatively(s: Session, host: Host, fileName: string): (r: Step)
    ensures r.session.xferMethod == Natively
    ensures s.source.Some? && !host.requestRaises ==>
              r == Step(s.(xferMethod := Natively, pending := true), [SetResolution, RequestAcquire], Done)
    ensures s.source.None? ==> |r.calls| > 0 && (r.calls[0] == CreateManager || r.calls[0].OpenSource?)
    ensures RequestAcquire in r.calls <==> r.session.source.Some?
    ensures SetCallback !in r.calls
    ensures r.session.source.Some? ==> (r.session.pending <==> s.pending || r.outcome == Done)
  {
    Acquire(s.(xferMethod := Natively), host)
  }

  /** AcquireByFile: transfers through a file from now on, then `_Acquire`. */
  function AcquireByFile(s: Session, host: Host): (r: Step)
    ensures r.session.xferMethod == ByFile
    ensures s.source.Some? && !host.requestRaises ==>
              r == Step(s.(xferMethod := ByFile, pending := true), [SetResolution, RequestAcquire], Done)
    ensures s.source.None? ==> |r.calls| > 0 && (r.calls[0] == CreateManager || r.calls[0].OpenSource?)
    ensures RequestAcquire in r.calls <==> r.session.source.Some?
    ensures r.session.source.Some? ==> (r.session.pending <==> s.pending || r.outcome == Done)
  {
    Acquire(s.(xferMethod := ByFile), host)
  }

  /** AcquireNatively's file name only sets a local variable: it changes nothing. */
  lemma AcquireNativelyIgnoresFileName(s: Session, host: Host, a: string, b: string)
    ensures AcquireNatively(s, host, a) == AcquireNatively(s, host, b)
  {
  }

  /**
   * VerifyCanWrite: the directory part of the path, or `.` when it has none,
   * must be writable; otherwise CannotWriteTransferFile is raised.
   */
  function VerifyCanWrite(path: string, writable: string -> bool): (r: Option<Fault>)
    ensures r.None? <==> writable(Paths.WriteCheckDir(path))
    ensures r.Some? ==> r.value == CannotWriteTransferFile(path)
  {
    if writable(Paths.WriteCheckDir(path)) then None else Some(CannotWriteTransferFile(path))
  }

  /**
   * The file a by-file transfer goes to, and the calls made to choose it:
   * the device's name or TWAIN.TMP, replaced by the override file when it
   * cannot be written and the device accepts the new name.  Any exception
   * here is swallowed and keeps the name chosen so far.
   */
  function ByFileName(s: Session, host: Host): (r: (string, seq<Call>))
    ensures s.source.None? ==> r == (DefaultTransferFile, [])
    ensures r.0 == DefaultTransferFile || r.0 == OverrideTransferFile || (host.xferName.Named? && r.0 == host.xferName.path)
    ensures forall c :: c in r.1 ==> c == GetXferFileName || c.SetXferFileName?
    ensures s.source.Some? && host.xferName.Named? && host.writable(Paths.WriteCheckDir(host.xferName.path)) ==>
              r == (host.xferName.path, [GetXferFileName])
    ensures s.source.Some? && host.xferName == NoName && host.writable(Paths.WriteCheckDir(DefaultTransferFile)) ==>
              r == (DefaultTransferFile, [GetXferFileName])
    ensures SetXferFileName(OverrideTransferFile) in r.1 && host.renameRaises ==>
              r.0 == (if host.xferName.Named? then host.xferName.path else DefaultTransferFile)
    ensures SetXferFileName(OverrideTransferFile) in r.1 && !host.renameRaises ==> r.0 == OverrideTransferFile
  {
    if s.source.None? then
      (DefaultTransferFile, [])
    else if host.xferName.NameUnsupported? then
      (DefaultTransferFile, [GetXferFileName])
    else
      var name := if host.xferName.Named? then host.xferName.path else DefaultTransferFile;
      if VerifyCanWrite(name, host.writable).None? then (name, [GetXferFileName])
      else if host.renameRaises then (name, [GetXferFileName, SetXferFileName(OverrideTransferFile)])
      else (OverrideTransferFile, [GetXferFileName, SetXferFileName(OverrideTransferFile)])
  }

  /**
   * ProcessXFer: fetches the image natively into `fname`, or by file after
   * checking the transfer file can be written.  Success sets AcquirePending
   * again; any exception is caught and logged and leaves the session as it
   * was.
   */
  function ProcessXFer(s: Session, host: Host, fname: string): (r: Step)
    ensures r.outcome == Done ==> r.session == s.(pending := true)
    ensures r.outcome != Done ==> r.session == s && r.outcome.Caught?
    ensures s.source.None? ==> r.outcome.Caught?
    ensures RequestAcquire !in r.calls
    ensures s.xferMethod == Natively && s.source.Some? ==> r.calls == [TransferNatively(fname)]
    ensures forall f :: TransferNatively(f) in r.calls ==> f == fname && s.xferMethod == Natively
    ensures s.xferMethod == ByFile && r.outcome == Done ==>
              exists f :: TransferByFile(f) in r.calls && host.writable(Paths.WriteCheckDir(f))
  {
    match s.xferMethod
    case Natively =>
      if s.source.None? then Step(s, [], Caught(NoSource))
      else if host.nativeRaises then Step(s, [TransferNatively(fname)], Caught(TwainError))
      else Step(s.(pending := true), [TransferNatively(fname)], Done)
    case ByFile => TransferThroughFile(s, host)
  }

  /**
   * The by-file half of ProcessXFer: the transfer file is chosen, checked
   * once more, and the image is fetched into it.
   */
  function TransferThroughFile(s: Session, host: Host): (r: Step)
    ensures r.outcome == Done ==> r.session == s.(pending := true)
    ensures r.outcome != Done ==> r.session == s && r.outcome.Caught?
    ensures s.source.None? ==> r.outcome.Caught?
    ensures forall c :: c in r.calls ==> !c.TransferNatively?
    ensures RequestAcquire !in r.calls
    ensures r.outcome == Done ==> exists f :: TransferByFile(f) in r.calls && host.writable(Paths.WriteCheckDir(f))
  {
    var (name, calls) := ByFileName(s, host);
    match VerifyCanWrite(name, host.writable)
    case Some(f) => Step(s, calls, Caught(f))
    case None =>
      if s.source.None? then Step(s, calls, Caught(NoSource))
      else
        var sent := calls + [TransferByFile(name)];
        assert TransferByFile(name) in sent;
        if host.fileRaises then Step(s, sent, Caught(TwainError))
        else Step(s.(pending := true), sent, Done)
  }

  /** A device that names an unwritable file is told to use the override file, and the image goes there. */
  lemma TransferFileOverridden(s: Session, host: Host, path: string)
    requires s.xferMethod == ByFile && s.source.Some?
    requires host.xferName == Named(path) && !host.writable(Paths.WriteCheckDir(path))
    requires !host.renameRaises && !host.fileRaises && host.writable("c:/")
    ensures ProcessXFer(s, host, NativeTransferFile).calls
            == [GetXferFileName, SetXferFileName(OverrideTransferFile), TransferByFile(OverrideTransferFile)]
    ensures ProcessXFer(s, host, NativeTransferFile).outcome == Done
  {
    OverrideFileDir();
    assert ByFileName(s, host) == (OverrideTransferFile, [GetXferFileName, SetXferFileName(OverrideTransferFile)]);
  }

  /** The override file is checked against the root of drive c. */
  lemma OverrideFileDir()
    ensures Paths.WriteCheckDir(OverrideTransferFile) == "c:/"
  {
    var root := ['c', ':', '/'];
    assert root == "c:/";
    assert OverrideTransferFile == root + "twainxfer.jpg";
    Paths.DriveRootChecksRoot('c', "twainxfer.jpg");
  }

  /** A device that cannot name a transfer file gets TWAIN.TMP in the working directory. */
  lemma TransferFileDefault(s: Session, host: Host)
    requires s.xferMethod == ByFile && s.source.Some?
    requires host.xferName == NameUnsupported && host.writable(".") && !host.fileRaises
    ensures ProcessXFer(s, host, NativeTransferFile).calls == [GetXferFileName, TransferByFile(DefaultTransferFile)]
    ensures ProcessXFer(s, host, NativeTransferFile).outcome == Done
  {
    Paths.BareNameChecksWorkingDir(DefaultTransferFile);
    assert ByFileName(s, host) == (DefaultTransferFile, [GetXferFileName]);
    assert TransferThroughFile(s, host).calls == [GetXferFileName, TransferByFile(DefaultTransferFile)];
  }

  /**
   * PollForImage: nothing happens unless an acquisition is pending and the
   * source reports an image; then the flag is cleared before the transfer
   * into tmp.bmp.  An exception from GetImageInfo is not caught.
   */
  function PollForImage(s: Session, host: Host): (r: Step)
    ensures !s.pending ==> r == Step(s, [], Done)
    ensures s.pending && s.source.Some? && host.imageInfo == NoImage ==> r == Step(s, [GetImageInfo], Done)
    ensures s.pending && s.source.Some? && host.imageInfo == InfoRaises ==> r == Step(s, [GetImageInfo], Raised(TwainError))
    ensures s.pending && s.source.None? ==> r.session == s && r.outcome == Raised(NoSource)
    ensures r.session.pending != s.pending ==> s.pending && r.outcome.Caught?
    ensures s.pending && s.source.Some? && host.imageInfo == ImageReady ==>
              var x := ProcessXFer(s.(pending := false), host, NativeTransferFile);
              r.calls == [GetImageInfo] + x.calls && r.outcome == x.outcome
    ensures s.pending && s.source.Some? && host.imageInfo == ImageReady && s.xferMethod == Natively ==>
              r.calls == [GetImageInfo, TransferNatively(NativeTransferFile)]
    ensures forall f :: TransferNatively(f) in r.calls ==> f == NativeTransferFile
    ensures r.session.(pending := s.pending) == s
    ensures Held(s) ==> Held(r.session)
  {
    if !s.pending then Step(s, [], Done)
    else if s.source.None? then Step(s, [], Raised(NoSource))
    else if host.imageInfo == InfoRaises then Step(s, [GetImageInfo], Raised(TwainError))
    else if host.imageInfo == NoImage then Step(s, [GetImageInfo], Done)
    else
      var x := ProcessXFer(s.(pending := false), host, NativeTransferFile);
      Step(x.session, [GetImageInfo] + x.calls, x.outcome)
  }

  /** Polling while no image is ready, or while GetImageInfo raises, changes nothing, however often it is repeated. */
  lemma PollWithoutImageIsIdle(s: Session, host: Host)
    requires host.imageInfo != ImageReady
    ensures PollForImage(PollForImage(s, host).session, host).session == s
  {
  }

  /** A poll that finds an image leaves an acquisition pending exactly when the transfer succeeded. */
  lemma PollTransferSetsPending(s: Session, host: Host)
    requires s.pending && s.source.Some? && host.imageInfo == ImageReady
    ensures PollForImage(s, host).session.pending <==> PollForImage(s, host).outcome == Done
  {
  }

  datatype Event = XferReady | CloseRequest | OtherMessage(code: int)

  /**
   * OnTwainEvent: an image ready clears AcquirePending and transfers into
   * tmp.bmp; a close request and any other message change nothing.
   */
  function OnTwainEvent(s: Session, host: Host, ev: Event): (r: Step)
    ensures !ev.XferReady? ==> r == Step(s, [], Done)
    ensures ev.XferReady? ==> (r.session.pending <==> r.outcome == Done)
    ensures ev.XferReady? ==> r.session.(pending := s.pending) == s
    ensures ev.XferReady? ==> r.calls == ProcessXFer(s.(pending := false), host, NativeTransferFile).calls
    ensures ev.XferReady? && s.xferMethod == Natively && s.source.Some? ==> r.calls == [TransferNatively(NativeTransferFile)]
    ensures forall f :: TransferNatively(f) in r.calls ==> f == NativeTransferFile
    ensures !r.outcome.Raised?
    ensures Held(s) ==> Held(r.session)
  {
    match ev
    case XferReady => ProcessXFer(s.(pending := false), host, NativeTransferFile)
    case CloseRequest => Step(s, [], Done)
    case OtherMessage(_) => Step(s, [], Done)
  }

  /**
   * After an acquisition started with AcquireNatively, whatever file name it
   * was given, the image-ready event transfers the image into tmp.bmp.
   */
  lemma AcquiredImageGoesToTmp(s: Session, host: Host, fileName: string)
    requires s.source.Some? && !host.requestRaises
    ensures var a := AcquireNatively(s, host, fileName).session;
            a.pending && OnTwainEvent(a, host, XferReady).calls == [TransferNatively(NativeTransferFile)]
  {
  }

  /** The session after handling `events` in order, with the same host answers each time. */
  function RunEvents(s: Session, host: Host, events: seq<Event>): Session
    decreases |events|
  {
    if |events| == 0 then s else RunEvents(OnTwainEvent(s, host, events[0]).session, host, events[1..])
  }

  /**
   * Over a series of events only the pending flag changes: it is left alone
   * until an image-ready event, and after one it says whether the transfer
   * succeeded, each later image-ready event repeating the same transfer.
   */
  lemma {:induction false} EventsPendingFlag(s: Session, host: Host, events: seq<Event>)
    ensures XferReady !in events ==> RunEvents(s, host, events) == s
    ensures XferReady in events ==>
              RunEvents(s, host, events)
              == s.(pending := ProcessXFer(s.(pending := false), host, NativeTransferFile).outcome == Done)
    decreases |events|
  {
    if |events| > 0 {
      var s1 := OnTwainEvent(s, host, events[0]).session;
      assert s1.(pending := false) == s.(pending := false);
      EventsPendingFlag(s1, host, events[1..]);
      assert events == [events[0]] + events[1..];
    }
  }
}

=== FILE: wrappers.dfy ===
/** Failure-compatible carriers shared by the rest of the model. */
module Wrappers {

  /** A value that may be missing: Python's `None` versus an object. */
  datatype Option<+T> = None | Some(value: T) {
    predicate IsFailure() {
      None?
    }

    function PropagateFailure<U>(): Option<U>
      requires None?
    {
      None
    }

    function Extract(): T
      requires Some?
    {
      value
    }
  }

  /** The outcome of a step that may raise: `Failure` carries what was raised. */
  datatype Result<+R, +E> = Success(value: R) | Failure(error: E) {
    predicate IsFailure() {
      Failure?
    }

    function PropagateFailure<U>(): Result<U, E>
      requires Failure?
    {
      Failure(error)
    }

    function Extract(): R
      requires Success?
    {
      value
    }
  }
}
